=== FILE: README.md ===
# Duty reminder, modelled in Dafny

This project models the decision logic of `scripts/duty_reminder.py`. Each
day the script reads a duty schedule (a CSV file with a `date` column and one
column per duty position), finds the row for today, and sends a WeChat
template message that names today's people, one `【position】name` line each.

The model covers four parts of the script:

- `normalize_date`: how a date cell is read. `datetime.strptime` is modelled
  as CPython's `_strptime` implements it. A format compiles to a regular
  expression with one group per directive. The groups' alternatives are
  tried in order, with backtracking. Leftover text is an error. `datetime`
  then checks the calendar.
- How `get_today_duty` chooses its row and builds the duty dictionary from it.
- How `send_reminder` checks its arguments, renders the positions text and
  classifies the reply.
- The `__main__` flow from the duty to the exit status.

The steps that touch the outside world are parameters. They are the
environment variables, the CSV file, the clock, the token endpoint and the
message endpoint. Each parameter stands for what that step returned.

Modules, in dependency order:

| file | module | contents |
|---|---|---|
| `options.dfy` | `Options` | `Option` |
| `text.dfy` | `Text` | `str.strip()`, ASCII digit strings, join and split |
| `calendar.dfy` | `Calendar` | proleptic Gregorian dates from year 1 to year 9999, and the canonical `YYYY-MM-DD` text |
| `strptime.dfy` | `DateParsing` | format compilation, ordered-alternative matching and `strptime` |
| `normalizer.dfy` | `DateNormalizer` | `normalize_date` and the properties of every spelling it accepts |
| `roster.dfy` | `Roster` | schedule rows, the duty dictionary and the first-match row selection |
| `message.dfy` | `Message` | the positions text, plus a reader that inverts it |
| `sender.dfy` | `Sender` | `send_reminder`: argument checks, the request and reply classification |
| `flow.dfy` | `Flow` | the `__main__` block |

### Exit status and delivery

- **Exit status.** Only an exception that reaches `__main__`'s handler makes
  the run exit with status 1 (lines 202-204). Three cases raise such an
  exception:
  - a missing environment variable;
  - an unreadable schedule;
  - a token reply whose JSON body is not an object, once there is a duty
    (lines 52-56 then raise `TypeError` or `AttributeError`).

  A token that cannot be obtained only logs (lines 197-198), and so does a
  failed send (lines 195-196). Both end with status 0. See
  `Flow.ExitStatusOnlyForExceptions`.
- **Delivery.** The script sends one message to a single recipient, with a
  single `positions` field, and never retries.

### Observations about the formats

- **The second format never parses.** `%Y-%-m-%-d` contains `%-`, which
  `strptime` does not accept as a directive. That format therefore always
  raises `ValueError` and is skipped. The first format already accepts
  months and days written without a leading zero.
- **Compact dates can be ambiguous.** `%m` tries two digits before one, so
  the compact text `2024111` is 1 November 2024, not 11 January
  (`DateNormalizer.CompactPrefersTwoDigitMonth`). `DateNormalizer.Unambiguous`
  excludes the compact spellings of January whose day text starts with `0`,
  `1` or `2`. Most of these read as October to December. January 10 and 20,
  and January 1 and 2 written unpadded, still come back to January, but only
  because `%d` fails and `%m` falls back to one digit
  (`DateNormalizer.NormalizeJanuaryByBacktracking`). The layout-agreement
  results are stated for all the spellings that are not excluded.

## Model

| member | source | states |
|---|---|---|
| Text.Strip | scripts/duty_reminder.py:77 | `str.strip()` with Python's Unicode whitespace (`str.isspace`). Specified by `Text.StripIsTrimmedInfix`, `Text.StripSurrounded` and `Text.StripIdempotent`. |
| Text.StripIsTrimmedInfix | scripts/duty_reminder.py:77 | `strip()` returns the infix of its input that is left once all the whitespace at both ends is removed. The result neither starts nor ends with whitespace. |
| Text.StripSurrounded | scripts/duty_reminder.py:77 | Stripping a trimmed text surrounded by any whitespace gives back exactly that text. |
| Text.StripIdempotent | scripts/duty_reminder.py:112-114 | Stripping twice is the same as stripping once. |
| Text.PadDigits | scripts/duty_reminder.py:78 | The zero padding of `strftime`'s `%Y`, `%m` and `%d`: exactly `width` digits. `Text.PadDigitsValue` and `Text.PadDigitsOfValue` make it the inverse of reading digits. |
| Text.PadDigitsValue | scripts/duty_reminder.py:78 | The zero-padded digits `strftime` writes for a number read back as that number. |
| Text.PadDigitsOfValue | scripts/duty_reminder.py:78 | A digit string is the zero-padded spelling of its own value. |
| Text.IntOf | scripts/duty_reminder.py:77 | `int()` of a captured group, surrounding whitespace allowed (`int(" 5") == 5`). `DateNormalizer.MonthFieldValue` and `DateNormalizer.DayFieldValue` read every written month and day back with it. |
| Text.Decimal | scripts/duty_reminder.py:168 | `str(n)` of a natural number: a non-empty digit string that reads back as `n`, starts with `0` exactly when `n` is 0, and is then just `0`. |
| Text.IntText | scripts/duty_reminder.py:168 | `str(i)` of an integer: a leading `-` exactly for a negative number, then digits that read back as its magnitude, with no leading zero except in `0` itself. |
| Text.Find | scripts/duty_reminder.py:133 | The first position of a character in a text, or `None` exactly when the character does not occur (used to read a `【pos】name` line back). |
| Text.Join | scripts/duty_reminder.py:132-134 | `"\n".join(parts)`. `Text.SplitJoin` and `Text.JoinSplit` make it the inverse of splitting at line breaks. |
| Text.SplitJoin | scripts/duty_reminder.py:132-134 | Splitting a `"\n".join` of parts that hold no line break gives back the parts. |
| Text.JoinSplit | scripts/duty_reminder.py:132-134 | Joining the pieces of a split gives back the text. |
| Calendar.DaysInMonth | scripts/duty_reminder.py:77 | February has 29 days in Gregorian leap years and 28 days otherwise, and those are the only months with 28 or 29 days. April, June, September and November have 30 days. January, March, May, July, August, October and December have 31. |
| Calendar.ValidDate | scripts/duty_reminder.py:77 | The check `datetime` makes after parsing: a year from 1 to 9999, a month from 1 to 12, and a day within `Calendar.DaysInMonth`. `DateParsing.DateOf` yields only such dates. `DateNormalizer.NormalizeSpelling` yields `None` for every other date. |
| Calendar.FormatIso | scripts/duty_reminder.py:78 | `strftime("%Y-%m-%d")` of a valid date is a well-formed `YYYY-MM-DD` text whose fields read back as that date. |
| Calendar.FormatIsoOfFields | scripts/duty_reminder.py:78 | Every canonical text is what `strftime` writes for the date it names, so writing and reading are inverse. |
| DateParsing.Compile | scripts/duty_reminder.py:69-72 | How `strptime` turns a format into a pattern, or into nothing when the format has a bad directive. Specified by `DateNormalizer.CompileLayout` and `DateNormalizer.UnpaddedFormatIsBad`. |
| DateParsing.AlternativeMatches | scripts/duty_reminder.py:77 | CPython's `TimeRE` groups as ordered alternatives, with `AlternativeCount` and `AlternativeWidth` giving their number and widths. `%Y` is four digits. `%m` is `1[0-2]`, `0[1-9]` or `[1-9]`. `%d` is `3[01]`, `[12]\d`, `0[1-9]`, `[1-9]` or a space then `[1-9]`. `DateNormalizer.MonthAlternative`, `DateNormalizer.DayAlternative` and `DateNormalizer.MonthBacktracks` pin which alternative takes each written field. |
| DateParsing.MatchAlternatives | scripts/duty_reminder.py:77 | One directive's alternatives are tried in order. A match ends within the text and keeps its groups before its end. `DateParsing.TakesFirstMatching`, `DateParsing.MatchedSomeAlternative` and `DateParsing.NoAlternativeMatches` state the order. |
| DateParsing.ParseWith | scripts/duty_reminder.py:77 | `strptime` under a compiled format yields only valid dates. Trailing text, including text after a space such as `2024-03-15 周五`, gives `None` (`DateNormalizer.NormalizeRejectsTrailingText`). |
| DateParsing.DateOf | scripts/duty_reminder.py:77 | The captured fields become a date only when `datetime` accepts them. |
| DateParsing.MatchPattern | scripts/duty_reminder.py:77 | A successful match ends within the text, and every group it captured lies before the end of the match. |
| DateParsing.Strptime | scripts/duty_reminder.py:77 | `strptime` yields only dates that `datetime` accepts. |
| DateParsing.TakesFirstMatching | scripts/duty_reminder.py:77 | A group takes the first of its alternatives after which the rest of the format still matches. |
| DateParsing.MatchedSomeAlternative | scripts/duty_reminder.py:77 | A successful group match used one of its alternatives, and the rest of the format matched after it. |
| DateParsing.NoAlternativeMatches | scripts/duty_reminder.py:77 | A group none of whose alternatives matches fails, whatever follows it. |
| DateNormalizer.FirstSome | scripts/duty_reminder.py:75-82 | The loop over the formats yields `None` exactly when every attempt fails. Otherwise it yields the result of an attempt that succeeded, and every earlier attempt failed. |
| DateNormalizer.NormalizeDate | scripts/duty_reminder.py:66-82 | `normalize_date`. Specified by `DateNormalizer.NormalizeDateIsIso`, `DateNormalizer.NormalizeSpelling`, `DateNormalizer.NormalizeCanonical` and `DateNormalizer.NormalizeIdempotent`. |
| DateNormalizer.FirstParse | scripts/duty_reminder.py:75-80 | The loop over the formats: the first date a format yields. Specified by `DateNormalizer.FirstSome`, `DateNormalizer.FirstParseInOrder` and `DateNormalizer.FirstParseStep`. |
| DateNormalizer.NormalizeDateIsIso | scripts/duty_reminder.py:66-82 | `normalize_date` is `None` exactly when no format parses the stripped text. Otherwise its output is a `YYYY-MM-DD` text that names a real calendar date. |
| DateNormalizer.CompileLayout | scripts/duty_reminder.py:69-72 | The dashed, slashed and compact formats compile to a year group, the separator, a month group, the separator and a day group. |
| DateNormalizer.UnpaddedFormatIsBad | scripts/duty_reminder.py:70 | `%Y-%-m-%-d` contains the bad directive `%-`, so it never compiles. |
| DateNormalizer.UnpaddedNeverParses | scripts/duty_reminder.py:70 | The second format rejects every input. |
| DateNormalizer.FirstParseInOrder | scripts/duty_reminder.py:68-80 | The formats are tried dashed first, then slashed, then compact, and the first that parses wins. |
| DateNormalizer.FirstParseStep | scripts/duty_reminder.py:75-80 | One iteration of the loop: return the first format's date, or continue with the remaining formats. |
| DateNormalizer.MonthFieldValue | scripts/duty_reminder.py:77 | A month written with or without its leading zero reads back as that month. |
| DateNormalizer.DayFieldValue | scripts/duty_reminder.py:77 | A day written zero-padded, unpadded or space-padded reads back as that day. |
| DateNormalizer.MonthAlternative | scripts/duty_reminder.py:77 | The `%m` alternative that takes a written month is the first one that matches there, unless the month is an unpadded `1` followed by `0`, `1` or `2`. In that case `1[0-2]` matches first and spans two characters. |
| DateNormalizer.DayAlternative | scripts/duty_reminder.py:77 | The `%d` alternative that takes a written day is the first one that matches there, when no digit follows the day. |
| DateNormalizer.MatchFields | scripts/duty_reminder.py:77 | A layout's pattern matches a year, a month and a day laid out in that layout, captures exactly those three fields, and ends after the day. |
| DateNormalizer.StrptimeOwnFormat | scripts/duty_reminder.py:69-77 | An unambiguous spelling parses under its own layout's format exactly when nothing follows it and the date exists. It then parses to that date. |
| DateNormalizer.YearThenMismatch | scripts/duty_reminder.py:69-77 | Four digits followed by a character that the format does not allow at that position fail that format. |
| DateNormalizer.OtherFormatsReject | scripts/duty_reminder.py:69-77 | A spelling in one layout is rejected by the other layouts' formats. |
| DateNormalizer.ParseUnderLayout | scripts/duty_reminder.py:69-77 | Of the three working formats, only the spelling's own format can parse it. |
| DateNormalizer.FirstParseUnderLayout | scripts/duty_reminder.py:75-80 | When every other layout's format rejects a text, the loop yields what that layout's format yields. |
| DateNormalizer.FirstParseOfSpelling | scripts/duty_reminder.py:75-82 | The loop finds an unambiguous spelling under its own format, and finds nothing when the date does not exist or junk follows the spelling. |
| DateNormalizer.NormalizeSpelling | scripts/duty_reminder.py:66-82 | Every unambiguous spelling normalises to the date's canonical text when the date exists, and to `None` when it does not (for example 30 February, or 29 February in a common year). This holds for dashed, slashed and compact layouts, padded or unpadded months and days, and any surrounding whitespace. So all unambiguous spellings of one date agree. |
| DateNormalizer.NormalizeRejectsTrailingText | scripts/duty_reminder.py:77-80 | A spelling followed by text that does not start with a digit normalises to `None`, with whitespace around the whole allowed. The trailing text may start with whitespace, as in `2024-03-15 周五` or `2024-03-15 (Fri)`; only its last character must not be whitespace, since `strip` would remove that. |
| DateNormalizer.CompactPrefersTwoDigitMonth | scripts/duty_reminder.py:72-78 | In `YYYY1D...`-style compact texts, `%m` takes October to December before January. Two different valid dates then spell the same text, and the text normalises to the later date. |
| DateNormalizer.MonthBacktracks | scripts/duty_reminder.py:72-77 | In a compact text `YYYY1D` or `YYYY1D0` whose `D` is `1` or `2`, `%m` first takes two digits. `%d` then fails (`DateNormalizer.DayFailsAtSix`), and `%m` falls back to the one-digit `1`. |
| DateNormalizer.CompactMatchBacktracks | scripts/duty_reminder.py:72-77 | The compact pattern then matches the whole text, with a one-character month. |
| DateNormalizer.StrptimeJanuary | scripts/duty_reminder.py:72-77 | January 10 and 20, and January 1 and 2 with an unpadded day, written compact with an unpadded month, parse under `%Y%m%d` to their own date. |
| DateNormalizer.FirstParseJanuary | scripts/duty_reminder.py:72-80 | For those spellings the dashed and slashed formats fail and the loop over the formats returns the January date from `%Y%m%d`. |
| DateNormalizer.NormalizeJanuaryByBacktracking | scripts/duty_reminder.py:66-82 | Those four spellings are outside `DateNormalizer.Unambiguous`, yet they normalise to their own January date. |
| DateNormalizer.DashedRejectsMonthAbove12 | scripts/duty_reminder.py:69 | A dashed text whose month field starts with `13` to `19` fails the dashed format. |
| DateNormalizer.NormalizeRejectsMonthAbove12 | scripts/duty_reminder.py:66-82 | A text such as `2024-13-01` matches no format, so it normalises to `None`. |
| DateNormalizer.FormatIsoIsCanonicalSpelling | scripts/duty_reminder.py:78 | The canonical text of a date is its zero-padded dashed spelling. |
| DateNormalizer.NormalizeCanonical | scripts/duty_reminder.py:66-82 | A canonical date text normalises to itself. |
| DateNormalizer.NormalizeIdempotent | scripts/duty_reminder.py:66-82 | Normalising an output of `normalize_date` returns it unchanged. |
| Roster.Lookup | scripts/duty_reminder.py:104 | `row.get(key)` is `None` exactly when the row has no such column. Otherwise it is a value the row holds under that key. |
| Roster.LookupAt | scripts/duty_reminder.py:104 | In a row with distinct keys, looking up a column gives that column's value. |
| Roster.DateCell | scripts/duty_reminder.py:104 | `row.get("date", "")`: the row's `date` value, or the empty text when there is none. `Roster.UnparseableNeverMatches` and `Roster.SpelledRowMatches` state what this means for matching. |
| Roster.RowDate | scripts/duty_reminder.py:104-106 | The normalised date cell. `Roster.SpelledRowMatches` shows that a cell spelling a date in any accepted layout yields that date. |
| Roster.IsDutyFor | scripts/duty_reminder.py:104-109 | `csv_date == today` for a row whose date cell normalises. `Roster.UnparseableNeverMatches`, `Roster.SelectNeedsCanonicalToday` and `Roster.SpelledRowMatches` state when it holds. |
| Roster.DutyOf | scripts/duty_reminder.py:111-115 | The duty has at most as many entries as the row. It holds no `date` entry and no empty value. Each of its entries is a column of the row with the value stripped. |
| Roster.DutyOfAppend | scripts/duty_reminder.py:111-115 | The duty is built column by column, so it keeps the row's column order. |
| Roster.DutyValuesTrimmed | scripts/duty_reminder.py:112-114 | No duty value starts or ends with whitespace. |
| Roster.DutyIsDict | scripts/duty_reminder.py:111-115 | The duty's keys are distinct, because they are some of the row's keys. |
| Roster.DutyLookup | scripts/duty_reminder.py:111-115 | For each key, the duty holds nothing for `date`, nothing for a missing or blank column, and the stripped value otherwise. |
| Roster.FirstMatch | scripts/duty_reminder.py:103-116 | The loop finds no row exactly when no row matches. Otherwise it finds a matching row, and no earlier row matches. |
| Roster.FirstMatchIgnoresLater | scripts/duty_reminder.py:109-115 | Once a row matches, rows after it are never looked at. |
| Roster.FirstMatchSkips | scripts/duty_reminder.py:105-106 | Rows that do not match are passed over, and the found position moves by their number. |
| Roster.SelectDuty | scripts/duty_reminder.py:103-116 | The result is `None` exactly when no row's date normalises to today. Otherwise it is the duty of the first such row. |
| Roster.SelectedDutyHasNames | scripts/duty_reminder.py:111-115 | The selected duty has no `date` key and no empty value. |
| Roster.SelectIgnoresLaterRows | scripts/duty_reminder.py:109-115 | Rows after the first match do not change the result. |
| Roster.SelectSkipsNonMatching | scripts/duty_reminder.py:104-106 | Rows that do not match, including rows whose date does not parse, do not change the result. |
| Roster.UnparseableNeverMatches | scripts/duty_reminder.py:104-106 | A row whose date cell does not parse matches no day. |
| Roster.SelectNeedsCanonicalToday | scripts/duty_reminder.py:87-109 | Only a canonical `YYYY-MM-DD` text of a real date can match a row. |
| Roster.SpelledRowMatches | scripts/duty_reminder.py:104-109 | A row whose date cell spells date `d` in any accepted layout is today's row exactly when `d` is today. |
| Message.DutyLine | scripts/duty_reminder.py:133 | One `【pos】name` line. `Message.ReadDutyLineInverse` reads it back as its entry. |
| Message.DutyLines | scripts/duty_reminder.py:132-134 | The lines of the named entries. `Message.LinesOfNamedEntries` pins them one to one and in order. |
| Message.PositionsText | scripts/duty_reminder.py:132-135 | The lines joined by line breaks. `Message.ReadPositionsTextInverse` and `Message.PositionsTextEmpty` specify it. |
| Message.NamedEntries | scripts/duty_reminder.py:133 | The `if name` filter keeps only entries of the input that have a name. |
| Message.NamedEntriesSingle | scripts/duty_reminder.py:133 | One entry is kept exactly when its name is not empty. |
| Message.NamedEntriesAppend | scripts/duty_reminder.py:132-134 | The filter works entry by entry: filtering two parts one after the other gives the filtered first part followed by the filtered second part. With `Message.NamedEntriesSingle` this keeps every named entry, in order, and drops every other entry. |
| Message.LinesOfNamedEntries | scripts/duty_reminder.py:132-134 | There is one `【pos】name` line per named entry, and line `i` belongs to the `i`-th named entry, so input order is kept. |
| Message.NamedEntriesOfNamed | scripts/duty_reminder.py:133 | Entries that all have names are all kept. |
| Message.NamedEntriesEmpty | scripts/duty_reminder.py:133 | Nothing is kept exactly when every name is empty. |
| Message.PositionsTextEmpty | scripts/duty_reminder.py:132-135 | The positions text is empty exactly when every name is empty. |
| Message.ReadDutyLineInverse | scripts/duty_reminder.py:133 | A `【pos】name` line reads back as its entry when the position holds no `】`. |
| Message.DutyLineHasNoBreak | scripts/duty_reminder.py:133 | A line holds no line break when its position and name hold none. |
| Message.ReadLinesInverse | scripts/duty_reminder.py:132-134 | The lines read back as the named entries. |
| Message.ReadPositionsTextInverse | scripts/duty_reminder.py:132-134 | Reading the positions text gives back exactly the named entries in order, so the text loses no information. |
| Sender.IsZero | scripts/duty_reminder.py:193 | Python's `== 0` (here and in the `!= 0` test at line 166) on a decoded JSON value: true for `0` and, since `False == 0`, for `false`; never for `null`, a string, a list or a dict. `Sender.SendSucceedsIff` and `Flow.ReportsSuccess` rest on it. |
| Sender.IsHttpError | scripts/duty_reminder.py:160 | The statuses for which `raise_for_status()` raises: 400 to 599. `Sender.NetworkFailures` states that they give `-2`. |
| Sender.JsonText | scripts/duty_reminder.py:168 | `str()` of the reply's `errcode` and `errmsg` in the raised message: `None`, `True`, `False`, the integer's `str` (`Text.IntText`), or the string itself. `Sender.ReplyErrcodeRequired` states the resulting `errmsg`. |
| Sender.TypeName | scripts/duty_reminder.py:166-180 | The type name in the `AttributeError` that `result.get` raises on a body that is not an object. `Sender.NonObjectReply` states the `errmsg` for a list, a string and `null`. |
| Sender.Classify | scripts/duty_reminder.py:159-180 | The reply is returned as is exactly when the HTTP status is not an error and the body is an object whose `errcode` is zero. A transport failure gives `-2` with its detail, and an HTTP error status gives `-2` with that status. A body that is not an object gives `-4`. So does an object without `errcode`. An object with a non-zero `errcode` gives `-4` with that `errcode`, and with its `errmsg`, or `未知错误` when there is none. |
| Sender.ResultField | scripts/duty_reminder.py:193 | `result.get(key)` on what `send_reminder` returns. A failure holds exactly `errcode` and `errmsg`. `Sender.SendSucceedsIff` states when `errcode` is zero. `Sender.SendRejectsInvalidArguments`, `Sender.SendWithoutNames`, `Sender.ReplyErrcodeRequired`, `Sender.NonObjectReply` and `Sender.NetworkFailures` state the `errmsg` texts. |
| Sender.ErrorMessage | scripts/duty_reminder.py:126-180 | The `errmsg` of each failure: the fixed texts at lines 127, 129 and 137, and `str(e)` of the exception caught at lines 172-180. |
| Sender.SendReminder | scripts/duty_reminder.py:122-170 | A request is made exactly when the token is not empty, the positions are not empty, and some position has a name. That request carries the positions text. |
| Sender.SendRejectsInvalidArguments | scripts/duty_reminder.py:126-129 | An empty token or empty positions gives `-4` and no request. The `errmsg` is `无效的access_token` or `positions必须是非空字典`. |
| Sender.SendWithoutNames | scripts/duty_reminder.py:135-137 | When every name is empty, the result is `{errcode: -1, errmsg: 无有效值班信息}` and no request is made. |
| Sender.SendSucceedsIff | scripts/duty_reminder.py:122-180 | The result's `errcode` is zero exactly when a request was made and its reply was accepted, and then the result is that reply. Every failure carries `-1`, `-2` or `-4`. |
| Sender.ReplyErrcodeRequired | scripts/duty_reminder.py:166-168 | A reply without `errcode` fails with `-4` and the `KeyError` text `'errcode'`. A reply with a non-zero `errcode` fails with `-4` and keeps that `errcode`. An integer code gives the message `微信API错误: [code] ` followed by the reply's text `errmsg`, or by `未知错误` when it has none. |
| Sender.NonObjectReply | scripts/duty_reminder.py:166 | A reply that is not a JSON object fails with `-4`, and the `AttributeError` text names its type (`list`, `str` or `NoneType`). |
| Sender.NetworkFailures | scripts/duty_reminder.py:159-174 | Transport failures and HTTP statuses from 400 to 599 give `-2`. A transport failure's `errmsg` is the exception's text. |
| Flow.RunReminder | scripts/duty_reminder.py:183-206 | The exit status is 1 exactly when the run crashed, and 0 otherwise. A crashed run never posts a message. A missing configuration or an unreadable schedule crashes before any request. |
| Flow.Notify | scripts/duty_reminder.py:189-204 | Once the duty is known, the run makes a request exactly when there is a non-empty duty. It crashes, with exit status 1 and only the token request made, exactly when there is a duty and the token request raises. Without a token, no message is posted. |
| Flow.ExitStatusOnlyForExceptions | scripts/duty_reminder.py:183-204 | The run exits 1 exactly when the configuration is missing, the schedule is unreadable, or the token request raises while there is a duty. A token that could not be obtained or a failed send exits 0. |
| Flow.NoDutyNoRequests | scripts/duty_reminder.py:189-200 | When no row is today's, or today's row names nobody, the run makes no network request and exits 0. |
| Flow.HasToken | scripts/duty_reminder.py:191 | The truth test of `if token :=`: a token was issued and it is not empty. `Flow.NoTokenNoSend` and `Flow.NotifySucceedsIff` state its effect. |
| Flow.NoTokenNoSend | scripts/duty_reminder.py:191-198 | Without a token, no message is posted. |
| Flow.NamedDutyIsPosted | scripts/duty_reminder.py:189-192 | A non-empty duty with a token is posted with one line per entry, and its reply is classified. |
| Flow.DutyIsAlwaysPosted | scripts/duty_reminder.py:189-192 | The duty the schedule yields, if not empty, is always posted once there is a token. |
| Flow.NotifySucceedsIff | scripts/duty_reminder.py:191-196 | The run reports success exactly when a message was posted and the reply's `errcode` was zero. |
| Flow.ReportsSuccess | scripts/duty_reminder.py:193-194 | The `result.get("errcode") == 0` test. Specified by `Flow.NotifySucceedsIff` and `Flow.SuccessIff`. |
| Flow.SuccessIff | scripts/duty_reminder.py:183-196 | The same holds for the whole run: a crash, a day without duty or a missing token never reports success. |

## Left out

- `load_env_vars` (lines 21-37) reads the environment. Here the configuration is a parameter: either the recipient and template, or `None` when a variable is missing and the function raises. The application id and secret are only used by `get_access_token`.
- The internals of `get_access_token` (lines 44-64) are not modelled, because it is a network call. What it does is a parameter: it issues a token, returns `None`, or raises. An empty token counts like `None`, as in the `if token :=` test. A token that is not a string, such as a number in the reply, is not modelled.
- The CSV file is not read. The schedule is a parameter: its rows in file order, or `None` when `get_today_duty` raises (no file, no `date` column, an unreadable file). In particular, a short row whose missing cells `csv.DictReader` fills with `None` makes `.strip()` raise. That case is covered only as "the schedule raised", not row by row.
- Both clock reads are parameters: today's date (line 87), and the date in the payload (line 148).
- All logging is left out, because it has no effect on results.
- The HTTP exchange of `send_reminder` (line 159) is a parameter: a transport failure, or a status with a decoded JSON body. A body that is not valid JSON (`-2` or `-3`, depending on the `requests` version) is not modelled. JSON numbers are integers only, so floats such as `0.0` are left out.
- The payload's colour strings and the URL text are not modelled. The request records the token, recipient, template, positions text and date.
- `Sender.JsonText`: a list or a dict is written `…`, not as Python's `repr`, since the model does not render nested JSON values.
- `Sender.ErrorMessage`: an HTTP error status gives only the start of the `HTTPError` text, such as `404 Client Error`. The reason phrase and the URL that follow it are not modelled. A list or a dict as a reply's `errcode` or `errmsg` is written `…`, not as Python's `repr`.
- `DateParsing.Strptime` covers only `%Y`, `%m` and `%d`. It treats `\d` as the ASCII digits only, whereas Python also matches other Unicode decimal digits. Every other directive is treated as a bad one, and the formats of this script use no other directive.
- `Calendar.FormatIso` writes the year zero-padded to four digits. Some platforms' `strftime` write years below 1000 without padding.

=== FILE: calendar.dfy ===
/**
 Proleptic Gregorian calendar dates as Python's `datetime.date` accepts them
 (years 1 to 9999), and their canonical `YYYY-MM-DD` text, the form
 `strftime("%Y-%m-%d")` writes.
 */
module Calendar {

  import opened Text

  /** `datetime.MINYEAR` and `datetime.MAXYEAR`. */
  const MinYear: int := 1
  const MaxYear: int := 9999

  datatype Date = Date(year: int, month: int, day: int)

  predicate IsLeapYear(y: int) {
    y % 4 == 0 && (y % 100 != 0 || y % 400 == 0)
  }

  function DaysInMonth(y: int, m: int): (n: int)
    requires 1 <= m <= 12
    ensures 28 <= n <= 31
    ensures n == 28 <==> m == 2 && !IsLeapYear(y)
    ensures n == 29 <==> m == 2 && IsLeapYear(y)
    ensures n == 30 <==> m in {4, 6, 9, 11}
    ensures n == 31 <==> m in {1, 3, 5, 7, 8, 10, 12}
  {
    if m == 2 then (if IsLeapYear(y) then 29 else 28)
    else if m in {4, 6, 9, 11} then 30
    else 31
  }

  /** The triples `datetime.date(year, month, day)` accepts without raising
      `ValueError`. */
  predicate ValidDate(d: Date) {
    && MinYear <= d.year <= MaxYear
    && 1 <= d.month <= 12
    && 1 <= d.day <= DaysInMonth(d.year, d.month)
  }

  /** The shape of a canonical date text: four digits, `-`, two digits, `-`,
      two digits. */
  predicate IsoShape(t: string) {
    && |t| == 10
    && AllDigits(t[..4]) && t[4] == '-'
    && AllDigits(t[5..7]) && t[7] == '-'
    && AllDigits(t[8..])
  }

  /** The date a canonical text names, read field by field. */
  function IsoFields(t: string): Date
    requires IsoShape(t)
  {
    Date(DigitsValue(t[..4]), DigitsValue(t[5..7]), DigitsValue(t[8..]))
  }

  /** A `YYYY-MM-DD` text that names a real calendar date. */
  predicate IsIsoDate(t: string) {
    IsoShape(t) && ValidDate(IsoFields(t))
  }

  /** `date.strftime("%Y-%m-%d")`. */
  function FormatIso(d: Date): (t: string)
    requires ValidDate(d)
    ensures IsIsoDate(t) && IsoFields(t) == d
  {
    var t := PadDigits(d.year, 4) + "-" + PadDigits(d.month, 2) + "-" + PadDigits(d.day, 2);
    PadDigitsValue(d.year, 4);
    PadDigitsValue(d.month, 2);
    PadDigitsValue(d.day, 2);
    assert t[..4] == PadDigits(d.year, 4);
    assert t[5..7] == PadDigits(d.month, 2);
    assert t[8..] == PadDigits(d.day, 2);
    t
  }

  /** Reading a canonical text and writing it back gives the same text, so
      `FormatIso` and `IsoFields` are inverse bijections between valid dates
      and canonical date texts. */
  lemma FormatIsoOfFields(t: string)
    requires IsIsoDate(t)
    ensures FormatIso(IsoFields(t)) == t
  {
    PadDigitsOfValue(t[..4]);
    PadDigitsOfValue(t[5..7]);
    PadDigitsOfValue(t[8..]);
    assert t == t[..4] + "-" + t[5..7] + "-" + t[8..];
  }
}

=== FILE: flow.dfy ===
/**
 The `__main__` block of the reminder script: load the configuration, find
 today's duty, fetch an access token, send the reminder and report. The
 steps that read the environment, the schedule file, the clock and the
 network are parameters: each stands for what that step returned, and a step
 is consulted only when the script reaches it. The result records which
 network requests were made, how the run ended and the process exit status.
 */
module Flow {

  import opened Options
  import opened Text
  import opened Roster
  import opened Message
  import opened Sender

  /** The recipient and template that `load_env_vars` reads. */
  datatype Config = Config(toUser: string, templateId: string)

  /** What `get_access_token()` does: it returns a token (possibly empty,
      when the service sends `"access_token": ""`), returns `None` (a
      network error, an undecodable body, or a dict without
      `access_token`), or lets an exception escape. The last happens when the
      body decodes to JSON that is not an object: `in` raises `TypeError` on
      `null` or a number, `data.get` raises `AttributeError` on a list or a
      string without `access_token`, and `data["access_token"]` raises
      `TypeError` on a list or a string that contains it. */
  datatype TokenOutcome = Issued(token: string) | Refused | Raised

  /** The `if token := get_access_token()` test. */
  predicate HasToken(t: TokenOutcome) {
    t.Issued? && t.token != []
  }

  /** The network requests the script makes. */
  datatype Call = TokenRequest | SendRequest(request: Request)

  /** How a run ended. */
  datatype Status =
    | Crashed              // an exception reached `__main__`'s handler
    | NoDuty               // no duty today: nothing is sent
    | NoToken              // the token could not be obtained
    | Sent(result: SendResult)

  datatype Run = Run(exitStatus: int, calls: seq<Call>, status: Status)

  /** One run of the script.
        `config`    the configuration, or `None` when a variable is missing
                    and `load_env_vars` raises;
        `schedule`  the rows of the schedule, or `None` when reading it raises
                    (no file, no `date` column, unreadable CSV);
        `today`     the date `get_today_duty` reads from the clock;
        `token`     what `get_access_token` does;
        `sendDate`  the date `send_reminder` reads from the clock for the
                    payload (a second clock read);
        `response`  what posting the message yields. */
  function RunReminder(config: Option<Config>, schedule: Option<seq<Row>>, today: string,
                       token: TokenOutcome, sendDate: string, response: Response): (run: Run)
    ensures run.exitStatus == 1 <==> run.status == Crashed
    ensures run.exitStatus == 0 <==> !run.status.Crashed?
    ensures run.status == Crashed ==> forall c :: c in run.calls ==> c == TokenRequest
    ensures config.None? || schedule.None? ==> run == Run(1, [], Crashed)
  {
    if config.None? || schedule.None? then Run(1, [], Crashed)
    else Notify(config.value, SelectDuty(schedule.value, today), token, sendDate, response)
  }

  /** The run once today's duty is known: `if duty_info := ...`, then
      `if token := ...`, then `send_reminder`. */
  function Notify(config: Config, duty: Option<Row>, token: TokenOutcome,
                  sendDate: string, response: Response): (run: Run)
    ensures run.exitStatus == (if run.status.Crashed? then 1 else 0)
    ensures run.status.Crashed? <==> duty.Some? && duty.value != [] && token.Raised?
    ensures run.calls == [] <==> duty.None? || duty.value == []
    ensures run.status.Crashed? ==> run.calls == [TokenRequest]
    ensures !HasToken(token) ==> run.calls == [] || run.calls == [TokenRequest]
  {
    if duty.None? || duty.value == [] then Run(0, [], NoDuty)
    else if token.Raised? then Run(1, [TokenRequest], Crashed)
    else if !HasToken(token) then Run(0, [TokenRequest], NoToken)
    else
      var s := SendReminder(token.token, duty.value, config.toUser, config.templateId, sendDate, response);
      var sends := if s.request.Some? then [SendRequest(s.request.value)] else [];
      Run(0, [TokenRequest] + sends, Sent(s.result))
  }

  /** The test `result.get("errcode") == 0` that decides whether the run
      reports success. */
  predicate ReportsSuccess(run: Run) {
    && run.status.Sent?
    && var code := ResultField(run.status.result, "errcode");
       code.Some? && IsZero(code.value)
  }

  /* ----------------------------- lemmas ----------------------------- */

  /** Only an exception makes the exit status 1: a missing configuration,
      an unreadable schedule, or `get_access_token` raising once there is a
      duty. A token that could not be obtained or a failed send still ends
      the run normally. */
  lemma ExitStatusOnlyForExceptions(config: Option<Config>, schedule: Option<seq<Row>>, today: string,
                                    token: TokenOutcome, sendDate: string, response: Response)
    ensures var run := RunReminder(config, schedule, today, token, sendDate, response);
            var raised := (&& config.Some? && schedule.Some?
                           && SelectDuty(schedule.value, today).Some?
                           && SelectDuty(schedule.value, today).value != []
                           && token.Raised?);
            run.exitStatus == (if config.None? || schedule.None? || raised then 1 else 0)
  {
  }

  /** When no row is scheduled for today, or the matching row names nobody,
      the run makes no network request at all. */
  lemma NoDutyNoRequests(config: Config, rows: seq<Row>, today: string,
                         token: TokenOutcome, sendDate: string, response: Response)
    requires SelectDuty(rows, today).None? || SelectDuty(rows, today).value == []
    ensures var run := RunReminder(Some(config), Some(rows), today, token, sendDate, response);
            run == Run(0, [], NoDuty)
  {
  }

  /** A token that could not be obtained means no message is posted. */
  lemma NoTokenNoSend(config: Config, rows: seq<Row>, today: string,
                      token: TokenOutcome, sendDate: string, response: Response)
    requires !HasToken(token)
    ensures var run := RunReminder(Some(config), Some(rows), today, token, sendDate, response);
            forall c :: c in run.calls ==> c == TokenRequest
  {
    var run := Notify(config, SelectDuty(rows, today), token, sendDate, response);
    assert RunReminder(Some(config), Some(rows), today, token, sendDate, response) == run;
    assert run.calls == [] || run.calls == [TokenRequest];
  }

  /** A duty whose entries all have names is always posted: the `-4`
      argument checks and the `-1` empty-roster case cannot fire, and the
      message carries one line per duty entry. */
  lemma NamedDutyIsPosted(config: Config, duty: Row, token: string, sendDate: string, response: Response)
    requires token != [] && duty != []
    requires forall e :: e in duty ==> e.value != []
    ensures var run := Notify(config, Some(duty), Issued(token), sendDate, response);
            && run.calls == [TokenRequest, SendRequest(Request(token, config.toUser, config.templateId, PositionsText(duty), sendDate))]
            && |DutyLines(duty)| == |duty|
            && run.status == Sent(Classify(response))
  {
    NamedEntriesOfNamed(duty);
    LinesOfNamedEntries(duty);
    assert duty[0] in duty;
  }

  /** The duty the schedule yields always has names, so once a token is at
      hand the reminder for the first matching row is posted. */
  lemma DutyIsAlwaysPosted(config: Config, rows: seq<Row>, today: string,
                           token: string, sendDate: string, response: Response)
    requires token != []
    requires SelectDuty(rows, today).Some? && SelectDuty(rows, today).value != []
    ensures var duty := SelectDuty(rows, today).value;
            var run := RunReminder(Some(config), Some(rows), today, Issued(token), sendDate, response);
            && run.calls == [TokenRequest, SendRequest(Request(token, config.toUser, config.templateId, PositionsText(duty), sendDate))]
            && run.status == Sent(Classify(response))
  {
    SelectedDutyHasNames(rows, today);
    NamedDutyIsPosted(config, SelectDuty(rows, today).value, token, sendDate, response);
  }

  /** Once the duty is known, the run reports success exactly when the
      message was posted and the service answered with a zero `errcode`. */
  lemma NotifySucceedsIff(config: Config, duty: Option<Row>, token: TokenOutcome,
                          sendDate: string, response: Response)
    ensures var run := Notify(config, duty, token, sendDate, response);
            (ReportsSuccess(run)
             <==> && (exists r :: SendRequest(r) in run.calls)
                  && response.Reply? && !IsHttpError(response.status)
                  && response.body.Object? && "errcode" in response.body.fields
                  && IsZero(response.body.fields["errcode"]))
  {
    var run := Notify(config, duty, token, sendDate, response);
    if run.status.Sent? {
      var s := SendReminder(token.token, duty.value, config.toUser, config.templateId, sendDate, response);
      SendSucceedsIff(token.token, duty.value, config.toUser, config.templateId, sendDate, response);
      if s.request.Some? {
        assert SendRequest(s.request.value) in run.calls;
      }
    }
  }

  /** The run reports success exactly when the message was posted and the
      service answered with a zero `errcode`; a crashed run, a day without
      duty or a missing token never reports success. */
  lemma SuccessIff(config: Option<Config>, schedule: Option<seq<Row>>, today: string,
                   token: TokenOutcome, sendDate: string, response: Response)
    ensures var run := RunReminder(config, schedule, today, token, sendDate, response);
            (ReportsSuccess(run)
             <==> && (exists r :: SendRequest(r) in run.calls)
                  && response.Reply? && !IsHttpError(response.status)
                  && response.body.Object? && "errcode" in response.body.fields
                  && IsZero(response.body.fields["errcode"]))
  {
    if config.Some? && schedule.Some? {
      NotifySucceedsIff(config.value, SelectDuty(schedule.value, today), token, sendDate, response);
    }
  }
}

=== FILE: message.dfy ===
/**
 The text `send_reminder` puts in the message's `positions` field: one
 `【position】name` line per duty entry whose name is not empty, in the
 duty's order, joined by newlines. A reader for that text shows that no
 information is lost when positions and names hold no line breaks and
 positions hold no closing bracket.
 */
module Message {

  import opened Options
  import opened Text
  import opened Roster

  const PositionOpen: char := '【'
  const PositionClose: char := '】'
  const LineBreak: char := '\n'

  /** The line of one position: `【`, the position, `】`, then the name. */
  function DutyLine(e: Entry): string {
    [PositionOpen] + e.key + [PositionClose] + e.value
  }

  /** The entries whose name is not empty (`if name`), in order. */
  function NamedEntries(positions: Row): (named: Row)
    ensures |named| <= |positions|
    ensures forall e :: e in named ==> e in positions && e.value != []
    decreases |positions|
  {
    if positions == [] then []
    else
      var rest := NamedEntries(positions[1..]);
      if positions[0].value != [] then [positions[0]] + rest else rest
  }

  /** The list comprehension of `send_reminder`: one line per entry with a
      name. */
  function DutyLines(positions: Row): seq<string>
    decreases |positions|
  {
    if positions == [] then []
    else
      var rest := DutyLines(positions[1..]);
      if positions[0].value != [] then [DutyLine(positions[0])] + rest else rest
  }

  /** `"\n".join(...)` of the lines. */
  function PositionsText(positions: Row): string {
    Join(DutyLines(positions), LineBreak)
  }

  /* ----------------------------- lemmas ----------------------------- */

  /** There is exactly one line per named entry, and line `i` is the line of
      the `i`-th named entry, so the input order is kept. */
  lemma {:induction false} LinesOfNamedEntries(positions: Row)
    ensures |DutyLines(positions)| == |NamedEntries(positions)|
    ensures forall i :: 0 <= i < |DutyLines(positions)| ==> DutyLines(positions)[i] == DutyLine(NamedEntries(positions)[i])
    decreases |positions|
  {
    if positions != [] {
      var lines, named := DutyLines(positions[1..]), NamedEntries(positions[1..]);
      LinesOfNamedEntries(positions[1..]);
      if positions[0].value != [] {
        var e := positions[0];
        forall i | 0 <= i < |lines| + 1 ensures ([DutyLine(e)] + lines)[i] == DutyLine(([e] + named)[i]) {
          if i > 0 {
            assert ([DutyLine(e)] + lines)[i] == lines[i - 1];
            assert ([e] + named)[i] == named[i - 1];
          }
        }
      }
    }
  }

  /** A single entry is kept exactly when it has a name. */
  lemma NamedEntriesSingle(e: Entry)
    ensures NamedEntries([e]) == if e.value != [] then [e] else []
  {
    assert [e][1..] == [];
  }

  /** The filter works entry by entry: filtering a concatenation
      concatenates the filtered parts, so every named entry is kept and the
      input order survives. */
  lemma {:induction false} NamedEntriesAppend(a: Row, b: Row)
    ensures NamedEntries(a + b) == NamedEntries(a) + NamedEntries(b)
    decreases |a|
  {
    if a == [] {
      assert a + b == b;
    } else {
      assert (a + b)[0] == a[0];
      assert (a + b)[1..] == a[1..] + b;
      NamedEntriesAppend(a[1..], b);
    }
  }

  /** Entries that all have names are all kept. */
  lemma {:induction false} NamedEntriesOfNamed(positions: Row)
    requires forall e :: e in positions ==> e.value != []
    ensures NamedEntries(positions) == positions
    decreases |positions|
  {
    if positions != [] {
      assert positions[0] in positions;
      assert forall e :: e in positions[1..] ==> e in positions;
      NamedEntriesOfNamed(positions[1..]);
    }
  }

  /** Entries without a name are never kept, so when all names are empty
      nothing is. */
  lemma {:induction false} NamedEntriesEmpty(positions: Row)
    ensures NamedEntries(positions) == [] <==> forall e :: e in positions ==> e.value == []
    decreases |positions|
  {
    if positions != [] {
      NamedEntriesEmpty(positions[1..]);
      assert forall e :: e in positions <==> e == positions[0] || e in positions[1..];
    }
  }

  /** A join whose first part is not empty is not empty. */
  lemma JoinStartsWithFirst(parts: seq<string>, sep: char)
    requires |parts| >= 1
    ensures |Join(parts, sep)| >= |parts[0]|
  {
  }

  /** The text is empty exactly when every name is empty: that is the
      `if not positions_str` test. */
  lemma PositionsTextEmpty(positions: Row)
    ensures PositionsText(positions) == [] <==> forall e :: e in positions ==> e.value == []
  {
    LinesOfNamedEntries(positions);
    NamedEntriesEmpty(positions);
    var lines := DutyLines(positions);
    if lines != [] {
      JoinStartsWithFirst(lines, LineBreak);
      assert |lines[0]| >= 2;
    }
  }

  /* ------------------------- reading the text back ------------------------- */

  /** Reads a `【position】name` line: the position runs to the first `】`. */
  function ReadDutyLine(line: string): Option<Entry> {
    if line == [] || line[0] != PositionOpen then None
    else
      var body := line[1..];
      match Find(body, PositionClose)
      case None => None
      case Some(k) => Some(Entry(body[..k], body[k + 1..]))
  }

  function ReadLines(lines: seq<string>): Option<Row>
    decreases |lines|
  {
    if lines == [] then Some([])
    else
      match ReadDutyLine(lines[0])
      case None => None
      case Some(e) =>
        match ReadLines(lines[1..])
        case None => None
        case Some(rest) => Some([e] + rest)
  }

  /** Reads a positions text back into its entries. */
  function ReadPositionsText(text: string): Option<Row> {
    if text == [] then Some([]) else ReadLines(Split(text, LineBreak))
  }

  /** Positions and names hold no line break, and positions hold no `】`. */
  predicate Renderable(positions: Row) {
    forall e :: e in positions ==> LineBreak !in e.key && LineBreak !in e.value && PositionClose !in e.key
  }

  /** A line reads back as the entry it was written from. */
  lemma ReadDutyLineInverse(e: Entry)
    requires PositionClose !in e.key
    ensures ReadDutyLine(DutyLine(e)) == Some(e)
  {
    var line := DutyLine(e);
    var body := e.key + [PositionClose] + e.value;
    assert line[1..] == body;
    FindAfter(e.key, PositionClose, e.value);
    assert body[..|e.key|] == e.key;
    assert body[|e.key| + 1..] == e.value;
  }

  /** No line holds a line break. */
  lemma DutyLineHasNoBreak(e: Entry)
    requires LineBreak !in e.key && LineBreak !in e.value
    ensures LineBreak !in DutyLine(e)
  {
    var line := DutyLine(e);
    forall i | 0 <= i < |line| ensures line[i] != LineBreak {
      if 1 <= i < 1 + |e.key| {
        assert line[i] == e.key[i - 1];
      } else if i > 1 + |e.key| {
        assert line[i] == e.value[i - 2 - |e.key|];
      }
    }
  }

  lemma {:induction false} ReadLinesInverse(positions: Row)
    requires Renderable(positions)
    ensures ReadLines(DutyLines(positions)) == Some(NamedEntries(positions))
    decreases |positions|
  {
    if positions != [] {
      assert forall e :: e in positions[1..] ==> e in positions;
      ReadLinesInverse(positions[1..]);
      var e := positions[0];
      assert e in positions;
      if e.value != [] {
        ReadDutyLineInverse(e);
        assert ([DutyLine(e)] + DutyLines(positions[1..]))[1..] == DutyLines(positions[1..]);
      }
    }
  }

  /** Reading the positions text gives back exactly the named entries, in
      order: the text has one line per named entry and nothing else. */
  lemma ReadPositionsTextInverse(positions: Row)
    requires Renderable(positions)
    ensures ReadPositionsText(PositionsText(positions)) == Some(NamedEntries(positions))
  {
    var lines := DutyLines(positions);
    LinesOfNamedEntries(positions);
    PositionsTextEmpty(positions);
    NamedEntriesEmpty(positions);
    ReadLinesInverse(positions);
    if lines != [] {
      forall i | 0 <= i < |lines| ensures LineBreak !in lines[i] {
        var e := NamedEntries(positions)[i];
        assert e in positions;
        DutyLineHasNoBreak(e);
      }
      SplitJoin(lines, LineBreak);
    }
  }
}

=== FILE: normalizer.dfy ===
/**
 `normalize_date`: trims a date cell, tries the script's four formats in
 order with `strptime`, and writes the first date that parses back out as
 `YYYY-MM-DD`.

 The second format, `%Y-%-m-%-d`, holds the directive `%-`, which Python's
 `strptime` does not know, so it always raises `ValueError` and is skipped;
 the first format already accepts months and days without a leading zero.
 */
module DateNormalizer {

  import opened Options
  import opened Text
  import opened Calendar
  import opened DateParsing

  const DashedFormat: string := "%Y-%m-%d"
  const UnpaddedFormat: string := "%Y-%-m-%-d"
  const SlashedFormat: string := "%Y/%m/%d"
  const CompactFormat: string := "%Y%m%d"

  /** The formats `normalize_date` tries, in its order. */
  const DateFormats: seq<string> := [DashedFormat, UnpaddedFormat, SlashedFormat, CompactFormat]

  /** The result of the first attempt that succeeds, trying `xs` in
      order. */
  function FirstSome<A, B>(xs: seq<A>, attempt: A -> Option<B>): (r: Option<B>)
    ensures r.None? <==> forall i :: 0 <= i < |xs| ==> attempt(xs[i]).None?
    ensures r.Some? ==> exists i :: && 0 <= i < |xs| && attempt(xs[i]) == r
                                    && forall j :: 0 <= j < i ==> attempt(xs[j]).None?
    decreases |xs|
  {
    if xs == [] then None
    else
      match attempt(xs[0])
      case Some(b) => Some(b)
      case None =>
        var r := FirstSome(xs[1..], attempt);
        assert r.Some? ==> exists i :: && 0 <= i < |xs| && attempt(xs[i]) == r
                                       && forall j :: 0 <= j < i ==> attempt(xs[j]).None? by {
          if r.Some? {
            var i :| && 0 <= i < |xs[1..]| && attempt(xs[1..][i]) == r
                     && forall j :: 0 <= j < i ==> attempt(xs[1..][j]).None?;
            forall j | 0 <= j < i + 1 ensures attempt(xs[j]).None? {
              if j > 0 { assert xs[j] == xs[1..][j - 1]; }
            }
            assert xs[i + 1] == xs[1..][i];
          }
        }
        r
  }

  /** Parsing `s` with a format: `datetime.strptime(s, fmt)`, with
      `ValueError` as `None`. */
  function ParseUnder(s: string): string -> Option<Date> {
    fmt => Strptime(s, fmt)
  }

  /** The date of the first format under which `s` parses. */
  function FirstParse(s: string, formats: seq<string>): Option<Date> {
    FirstSome(formats, ParseUnder(s))
  }

  /** `normalize_date(raw)`: the first date that parses from the stripped
      text, written back as `YYYY-MM-DD`. */
  function NormalizeDate(raw: string): Option<string> {
    match FirstParse(Strip(raw), DateFormats)
    case None => None
    case Some(d) => Some(FormatIso(d))
  }

  /** `normalize_date` gives `None` exactly when no format parses the
      stripped text, and otherwise a canonical text naming a real calendar
      date. */
  lemma NormalizeDateIsIso(raw: string)
    ensures NormalizeDate(raw).None?
        <==> forall i :: 0 <= i < |DateFormats| ==> Strptime(Strip(raw), DateFormats[i]).None?
    ensures NormalizeDate(raw).Some? ==> IsIsoDate(NormalizeDate(raw).value)
  {
    var r := FirstParse(Strip(raw), DateFormats);
    if r.Some? {
      var i :| 0 <= i < |DateFormats| && Strptime(Strip(raw), DateFormats[i]) == r;
    }
  }

  /* ----------------------------- spellings ----------------------------- */

  /** How the fields of a date are separated. */
  datatype Layout = Dashed | Slashed | Compact

  /** How a day below 10 is written: `05`, `5` or ` 5`. */
  datatype DayStyle = ZeroPadded | Unpadded | SpacePadded

  /** One way of writing a date that the formats accept: the layout, whether
      a month below 10 gets its leading zero, and how a day below 10 is
      written. */
  datatype Spelling = Spelling(layout: Layout, padMonth: bool, dayStyle: DayStyle)

  /** The canonical spelling, the one `strftime("%Y-%m-%d")` writes. */
  const Canonical: Spelling := Spelling(Dashed, true, ZeroPadded)

  function Separator(l: Layout): string {
    match l
    case Dashed => "-"
    case Slashed => "/"
    case Compact => ""
  }

  function FormatOf(l: Layout): string {
    match l
    case Dashed => DashedFormat
    case Slashed => SlashedFormat
    case Compact => CompactFormat
  }

  /** `next`, preceded by the layout's separator when it has one. */
  function SeparatorThen(l: Layout, next: Pattern): Pattern {
    match l
    case Dashed => Literal('-', next)
    case Slashed => Literal('/', next)
    case Compact => next
  }

  /** The part of a layout's pattern after the year group. */
  function MonthDayPattern(l: Layout): Pattern {
    Group(Month, SeparatorThen(l, Group(Day, End)))
  }

  /** The compiled pattern of a layout's format. */
  function PatternOf(l: Layout): Pattern {
    Group(Year, SeparatorThen(l, MonthDayPattern(l)))
  }

  /** Dates whose fields fit the digit groups of the formats (the calendar
      may still reject them). */
  predicate Spellable(d: Date) {
    0 <= d.year <= 9999 && 1 <= d.month <= 12 && 1 <= d.day <= 31
  }

  /** `n` in two digits, the way `%m` and `%d` write it. */
  function TwoDigits(n: int): string
    requires 0 <= n < 100
  {
    [DigitChar(n / 10), DigitChar(n % 10)]
  }

  function MonthText(m: int, pad: bool): string
    requires 1 <= m <= 12
  {
    if pad || m >= 10 then TwoDigits(m) else [DigitChar(m)]
  }

  function DayText(d: int, style: DayStyle): string
    requires 1 <= d <= 31
  {
    if d >= 10 || style == ZeroPadded then TwoDigits(d)
    else if style == Unpadded then [DigitChar(d)]
    else [' ', DigitChar(d)]
  }

  /** `d` written in spelling `sp`. */
  function Spell(d: Date, sp: Spelling): string
    requires Spellable(d)
  {
    PadDigits(d.year, 4) + Separator(sp.layout) + MonthDayText(d, sp)
  }

  /** The text after the year and its separator. */
  function MonthDayText(d: Date, sp: Spelling): string
    requires Spellable(d)
  {
    MonthText(d.month, sp.padMonth) + Separator(sp.layout) + DayText(d.day, sp.dayStyle)
  }

  /** The spellings whose reading does not depend on backtracking into
      `%m`. Excluded are the compact spellings `YYYY1D...` with an unpadded
      January and a day written from `0`, `1` or `2`. Most of them read as
      October to December (see `CompactPrefersTwoDigitMonth`): January 1 to
      9 zero-padded, 11 to 19 and 21 to 29. The other excluded ones (January
      10 and 20, and January 1 and 2 unpadded) are read as January again, but
      only after `%d` fails and `%m` falls back to one digit; the results
      stated for unambiguous spellings do not cover them, and
      `NormalizeJanuaryByBacktracking` states theirs. */
  predicate Unambiguous(d: Date, sp: Spelling)
    requires Spellable(d)
  {
    || sp.layout != Compact
    || sp.padMonth
    || d.month != 1
    || !('0' <= DayText(d.day, sp.dayStyle)[0] <= '2')
  }

  /* ----------------------------- lemmas ----------------------------- */

  /** A `%` directive at the head of a format becomes that directive's group. */
  lemma CompileField(c: char, rest: string)
    requires DirectiveOf(c).Some?
    ensures Compile(['%', c] + rest)
         == match Compile(rest)
            case None => None
            case Some(p) => Some(Group(DirectiveOf(c).value, p))
  {
    assert (['%', c] + rest)[2..] == rest;
  }

  /** Any other character at the head of a format must appear literally. */
  lemma CompileLiteral(c: char, rest: string)
    requires c != '%'
    ensures Compile([c] + rest)
         == match Compile(rest)
            case None => None
            case Some(p) => Some(Literal(c, p))
  {
    assert ([c] + rest)[1..] == rest;
  }

  /** A layout's separator compiles to its literal. */
  lemma CompileSeparator(l: Layout, rest: string, p: Pattern)
    requires Compile(rest) == Some(p)
    ensures Compile(Separator(l) + rest) == Some(SeparatorThen(l, p))
  {
    var sep := Separator(l);
    if l == Compact {
      assert sep + rest == rest;
    } else {
      CompileLiteral(sep[0], rest);
      assert [sep[0]] + rest == sep + rest;
    }
  }

  /** Compiles `%Y`, the separator (if any), `%m`, the separator and `%d`. */
  lemma CompileLayout(l: Layout)
    ensures Compile(FormatOf(l)) == Some(PatternOf(l))
  {
    var sep := Separator(l);
    var e: string := [];
    CompileField('d', e);
    var day: string := ['%', 'd'] + e;
    CompileSeparator(l, day, Group(Day, End));
    CompileField('m', sep + day);
    var monthDay := ['%', 'm'] + (sep + day);
    CompileSeparator(l, monthDay, MonthDayPattern(l));
    CompileField('Y', sep + monthDay);
    assert ['%', 'Y'] + (sep + monthDay) == FormatOf(l);
  }

  /** The second format holds the bad directive `%-`, so it does not
      compile. */
  lemma UnpaddedFormatIsBad()
    ensures Compile(UnpaddedFormat) == None
  {
    var tail: string := "-%-m-%-d";
    assert Compile("%-m-%-d") == None;
    CompileLiteral('-', "%-m-%-d");
    assert ['-'] + "%-m-%-d" == tail;
    CompileField('Y', tail);
    assert ['%', 'Y'] + tail == UnpaddedFormat;
  }

  /** `normalize_date` tries the dashed, slashed and compact formats in that
      order and keeps the first date that parses; the unpadded format never
      contributes. */
  lemma FirstParseInOrder(s: string)
    ensures FirstParse(s, DateFormats)
         == if Strptime(s, DashedFormat).Some? then Strptime(s, DashedFormat)
            else if Strptime(s, SlashedFormat).Some? then Strptime(s, SlashedFormat)
            else Strptime(s, CompactFormat)
  {
    UnpaddedNeverParses(s);
    var none: seq<string> := [];
    FirstParseStep(s, CompactFormat, none);
    FirstParseStep(s, SlashedFormat, [CompactFormat] + none);
    FirstParseStep(s, UnpaddedFormat, [SlashedFormat] + ([CompactFormat] + none));
    FirstParseStep(s, DashedFormat, [UnpaddedFormat] + ([SlashedFormat] + ([CompactFormat] + none)));
    assert [DashedFormat] + ([UnpaddedFormat] + ([SlashedFormat] + ([CompactFormat] + none))) == DateFormats;
  }

  /** One step of trying the formats in order. */
  lemma FirstParseStep(s: string, f: string, rest: seq<string>)
    ensures FirstParse(s, [f] + rest)
         == if Strptime(s, f).Some? then Strptime(s, f) else FirstParse(s, rest)
  {
    assert ([f] + rest)[1..] == rest;
  }

  /** The unpadded format is rejected whatever the input. */
  lemma UnpaddedNeverParses(s: string)
    ensures Strptime(s, UnpaddedFormat) == None
  {
    UnpaddedFormatIsBad();
  }

  /** `strftime` pads a month or day to the same two digits. */
  lemma PadTwo(n: nat)
    requires n < 100
    ensures PadDigits(n, 2) == TwoDigits(n)
  {
    assert PadDigits(n / 10, 1) == PadDigits(n / 10 / 10, 0) + [DigitChar(n / 10 % 10)];
  }

  lemma IntOfDigits(t: string)
    requires t != [] && AllDigits(t)
    ensures IntOf(t) == DigitsValue(t)
  {
    assert [] + t + [] == t;
    StripSurrounded([], t, []);
  }

  lemma DigitCharValue(n: nat)
    requires n < 10
    ensures DigitsValue([DigitChar(n)]) == n
  {
    assert [DigitChar(n)][..0] == [];
  }

  /** `int()` reads back a zero-padded field. */
  lemma PaddedFieldValue(n: nat, width: nat)
    requires 0 < width && n < Pow10(width)
    ensures IntOf(PadDigits(n, width)) == n
  {
    PadDigitsValue(n, width);
    IntOfDigits(PadDigits(n, width));
  }

  /** `int()` reads back the month text of a spelling. */
  lemma MonthFieldValue(m: int, pad: bool)
    requires 1 <= m <= 12
    ensures IntOf(MonthText(m, pad)) == m
  {
    if pad || m >= 10 {
      PadTwo(m);
      PaddedFieldValue(m, 2);
    } else {
      DigitCharValue(m);
      IntOfDigits([DigitChar(m)]);
    }
  }

  /** `int()` reads back the day text of a spelling, including a
      space-padded one (`int(" 5") == 5`). */
  lemma DayFieldValue(dd: int, style: DayStyle)
    requires 1 <= dd <= 31
    ensures IntOf(DayText(dd, style)) == dd
  {
    if dd >= 10 || style == ZeroPadded {
      PadTwo(dd);
      PaddedFieldValue(dd, 2);
    } else if style == Unpadded {
      DigitCharValue(dd);
      IntOfDigits([DigitChar(dd)]);
    } else {
      DigitCharValue(dd);
      assert [' ', DigitChar(dd)] == [' '] + [DigitChar(dd)] + [];
      StripSurrounded([' '], [DigitChar(dd)], []);
    }
  }

  /** The first `%m` alternative that matches at a month text is the one
      that spans it, unless an unpadded `1` is followed by `0`, `1` or `2`. */
  lemma MonthAlternative(m: int, pad: bool, s: string, i: nat) returns (k: nat)
    requires 1 <= m <= 12
    requires i + |MonthText(m, pad)| <= |s| && s[i..i + |MonthText(m, pad)|] == MonthText(m, pad)
    requires |MonthText(m, pad)| == 1 && m == 1 && i + 1 < |s| ==> !('0' <= s[i + 1] <= '2')
    ensures FirstAlternativeSpans(Month, s, i, |MonthText(m, pad)|, k)
  {
    var t := MonthText(m, pad);
    assert s[i] == t[0];
    if pad || m >= 10 {
      assert s[i + 1] == t[1];
      k := if m >= 10 then 0 else 1;
    } else {
      k := 2;
    }
  }

  /** A two-digit day is spanned by the first `%d` alternative that
      matches at it. */
  lemma TwoDigitDayAlternative(dd: int, s: string, i: nat) returns (k: nat)
    requires 1 <= dd <= 31
    requires i + 2 <= |s| && s[i..i + 2] == TwoDigits(dd)
    ensures FirstAlternativeSpans(Day, s, i, 2, k)
  {
    var t := TwoDigits(dd);
    assert s[i] == t[0] && s[i + 1] == t[1];
    if dd >= 30 {
      assert dd / 10 == 3;
      k := 0;
    } else if dd >= 10 {
      assert 1 <= dd / 10 <= 2;
      k := 1;
    } else {
      assert dd / 10 == 0 && dd % 10 == dd;
      k := 2;
    }
  }

  /** A one-digit day followed by the end of the input or a non-digit is
      spanned by `[1-9]`. */
  lemma OneDigitDayAlternative(dd: int, s: string, i: nat)
    requires 1 <= dd <= 9
    requires i + 1 <= |s| && s[i..i + 1] == [DigitChar(dd)]
    requires i + 1 < |s| ==> !IsDigit(s[i + 1])
    ensures FirstAlternativeSpans(Day, s, i, 1, 3)
  {
    assert s[i] == DigitChar(dd);
  }

  /** A space-padded day is spanned by ` [1-9]`. */
  lemma SpacedDayAlternative(dd: int, s: string, i: nat)
    requires 1 <= dd <= 9
    requires i + 2 <= |s| && s[i..i + 2] == [' ', DigitChar(dd)]
    ensures FirstAlternativeSpans(Day, s, i, 2, 4)
  {
    assert s[i] == ' ' && s[i + 1] == DigitChar(dd);
  }

  /** The first `%d` alternative that matches at a day text followed by the
      end of the input or a non-digit is the one that spans it. */
  lemma DayAlternative(dd: int, style: DayStyle, s: string, i: nat) returns (k: nat)
    requires 1 <= dd <= 31
    requires i + |DayText(dd, style)| <= |s| && s[i..i + |DayText(dd, style)|] == DayText(dd, style)
    requires i + |DayText(dd, style)| < |s| ==> !IsDigit(s[i + |DayText(dd, style)|])
    ensures FirstAlternativeSpans(Day, s, i, |DayText(dd, style)|, k)
  {
    if dd >= 10 || style == ZeroPadded {
      k := TwoDigitDayAlternative(dd, s, i);
    } else if style == Unpadded {
      OneDigitDayAlternative(dd, s, i);
      k := 3;
    } else {
      SpacedDayAlternative(dd, s, i);
      k := 4;
    }
  }

  /** The layout's separator, if it has one, appears at `i`. */
  predicate SeparatorAt(l: Layout, s: string, i: nat) {
    i + |Separator(l)| <= |s| && (l != Compact ==> s[i] == Separator(l)[0])
  }

  /** The separator literal, if any, matches the separator. */
  lemma SeparatorStep(l: Layout, next: Pattern, s: string, i: nat, g: Groups, m: Option<Match>)
    requires SeparatorAt(l, s, i)
    requires MatchPattern(next, s, i + |Separator(l)|, g) == m
    ensures MatchPattern(SeparatorThen(l, next), s, i, g) == m
  {
    match l {
      case Dashed => assert s[i] == '-';
      case Slashed => assert s[i] == '/';
      case Compact =>
    }
  }

  /** The separator and the day group take the separator and the `wd`
      characters that the day group's first matching alternative spans. */
  lemma MatchSepDay(l: Layout, wd: nat, s: string, j: nat, g: Groups, kd: nat)
    requires SeparatorAt(l, s, j)
    requires FirstAlternativeSpans(Day, s, j + |Separator(l)|, wd, kd)
    ensures var iD := j + |Separator(l)|;
            MatchPattern(SeparatorThen(l, Group(Day, End)), s, j, g) == Some(Match(iD + wd, Bind(g, Day, Span(iD, iD + wd))))
  {
    var iD := j + |Separator(l)|;
    var m := Some(Match(iD + wd, Bind(g, Day, Span(iD, iD + wd))));
    MatchGroup(Day, End, s, iD, g, wd, kd, m);
    SeparatorStep(l, Group(Day, End), s, j, g, m);
  }

  /** The capture spans of a month of `wm` characters at `iM` and a day of
      `wd` characters at `iD`. */
  function MonthDaySpans(g: Groups, iM: nat, wm: nat, iD: nat, wd: nat): Groups {
    Bind(Bind(g, Month, Span(iM, iM + wm)), Day, Span(iD, iD + wd))
  }

  /** The month group, separator and day group take the characters that
      their groups' first matching alternatives span. */
  lemma MatchMonthSepDay(l: Layout, wm: nat, wd: nat, s: string, i: nat, g: Groups, km: nat, kd: nat)
    requires i <= |s| && FirstAlternativeSpans(Month, s, i, wm, km)
    requires SeparatorAt(l, s, i + wm)
    requires FirstAlternativeSpans(Day, s, i + wm + |Separator(l)|, wd, kd)
    ensures var iD := i + wm + |Separator(l)|;
            MatchPattern(MonthDayPattern(l), s, i, g) == Some(Match(iD + wd, MonthDaySpans(g, i, wm, iD, wd)))
  {
    var g2 := Bind(g, Month, Span(i, i + wm));
    var iD := i + wm + |Separator(l)|;
    var rest := SeparatorThen(l, Group(Day, End));
    var m := Some(Match(iD + wd, MonthDaySpans(g, i, wm, iD, wd)));
    assert MatchPattern(MonthDayPattern(l), s, i, g) == m by {
      assert MatchPattern(rest, s, i + wm, g2) == m by {
        MatchSepDay(l, wd, s, i + wm, g2, kd);
      }
      MatchGroup(Month, rest, s, i, g, wm, km, m);
    }
  }

  /** Where the match of a layout's pattern ends when the month spans `wm`
      characters and the day `wd`. */
  function FieldsEnd(l: Layout, wm: nat, wd: nat): nat {
    4 + |Separator(l)| + wm + |Separator(l)| + wd
  }

  /** The capture spans of a four-digit year, a month of `wm` characters and
      a day of `wd` characters, separated by the layout's separator. */
  function FieldSpans(l: Layout, wm: nat, wd: nat): (g: Groups)
    ensures g.year == Some(Span(0, 4))
    ensures g.month == Some(Span(4 + |Separator(l)|, 4 + |Separator(l)| + wm))
    ensures g.day == Some(Span(4 + |Separator(l)| + wm + |Separator(l)|, FieldsEnd(l, wm, wd)))
  {
    var iM := 4 + |Separator(l)|;
    MonthDaySpans(Bind(NoGroups, Year, Span(0, 4)), iM, wm, iM + wm + |Separator(l)|, wd)
  }

  /** `s` holds, from its start, a four-digit year, the layout's separator,
      a month that the first matching `%m` alternative `km` spans in `wm`
      characters, the separator, and a day that the first matching `%d`
      alternative `kd` spans in `wd` characters. */
  predicate FieldsAt(l: Layout, s: string, wm: nat, wd: nat, km: nat, kd: nat) {
    && FirstAlternativeSpans(Year, s, 0, 4, 0)
    && SeparatorAt(l, s, 4)
    && FirstAlternativeSpans(Month, s, 4 + |Separator(l)|, wm, km)
    && SeparatorAt(l, s, 4 + |Separator(l)| + wm)
    && FirstAlternativeSpans(Day, s, 4 + |Separator(l)| + wm + |Separator(l)|, wd, kd)
  }

  /** A layout's pattern takes the year, month and day fields laid out as
      `FieldsAt` describes, and nothing more. */
  lemma MatchFields(l: Layout, s: string, wm: nat, wd: nat, km: nat, kd: nat)
    requires FieldsAt(l, s, wm, wd, km, kd)
    ensures MatchPattern(PatternOf(l), s, 0, NoGroups) == Some(Match(FieldsEnd(l, wm, wd), FieldSpans(l, wm, wd)))
  {
    var g1 := Bind(NoGroups, Year, Span(0, 4));
    var rest := SeparatorThen(l, MonthDayPattern(l));
    var iM := 4 + |Separator(l)|;
    var iD := iM + wm + |Separator(l)|;
    var m := Some(Match(iD + wd, MonthDaySpans(g1, iM, wm, iD, wd)));
    assert MatchPattern(MonthDayPattern(l), s, iM, g1) == m by {
      MatchMonthSepDay(l, wm, wd, s, iM, g1, km, kd);
    }
    assert MatchPattern(rest, s, 4, g1) == m by {
      SeparatorStep(l, MonthDayPattern(l), s, 4, g1, m);
    }
    assert m == Some(Match(FieldsEnd(l, wm, wd), FieldSpans(l, wm, wd)));
    MatchGroup(Year, rest, s, 0, NoGroups, 4, 0, m);
  }

  /** In an unambiguous spelling, an unpadded January is not followed by
      `0`, `1` or `2`. */
  lemma AfterUnpaddedJanuary(d: Date, sp: Spelling)
    requires Spellable(d) && Unambiguous(d, sp)
    requires |MonthText(d.month, sp.padMonth)| == 1 && d.month == 1
    ensures var rest := Separator(sp.layout) + DayText(d.day, sp.dayStyle);
            !('0' <= rest[0] <= '2')
  {
  }

  /** Where `yt + sep + mt + sep + dt` starts a text, each part sits at its
      offset. */
  lemma FieldSlices(s: string, yt: string, sep: string, mt: string, dt: string, junk: string)
    requires s == yt + sep + mt + sep + dt + junk
    ensures var iM := |yt| + |sep|;
            var iD := iM + |mt| + |sep|;
            && s[0..|yt|] == yt && s[|yt|..iM] == sep && s[iM..iM + |mt|] == mt
            && s[iM + |mt|..iD] == sep && s[iD..iD + |dt|] == dt && s[iD + |dt|..] == junk
  {
    var iM := |yt| + |sep|;
    var iD := iM + |mt| + |sep|;
    assert s[0..|yt|] == yt;
    assert s[|yt|..] == sep + mt + sep + dt + junk;
    assert s[iM..] == mt + sep + dt + junk;
    assert s[iM + |mt|..] == sep + dt + junk;
    assert s[iD..] == dt + junk;
  }

  /** Where the year, separators, month and day of a spelling followed by
      `junk` sit, and what follows a one-character month and the day. */
  lemma SpellingSlices(d: Date, sp: Spelling, junk: string)
    requires Spellable(d)
    ensures var s, sep := Spell(d, sp) + junk, Separator(sp.layout);
            var mt, dt := MonthText(d.month, sp.padMonth), DayText(d.day, sp.dayStyle);
            var iM := 4 + |sep|;
            var iD := iM + |mt| + |sep|;
            && |Spell(d, sp)| == iD + |dt|
            && s[0..4] == PadDigits(d.year, 4) && s[4..iM] == sep && s[iM..iM + |mt|] == mt
            && s[iM + |mt|..iD] == sep && s[iD..iD + |dt|] == dt
            && (|mt| == 1 && iM + 1 < |s| ==> s[iM + 1] == (sep + dt)[0])
            && (iD + |dt| < |s| ==> s[iD + |dt|] == junk[0])
  {
    var s, sep := Spell(d, sp) + junk, Separator(sp.layout);
    var yt, mt, dt := PadDigits(d.year, 4), MonthText(d.month, sp.padMonth), DayText(d.day, sp.dayStyle);
    assert s == yt + sep + mt + sep + dt + junk;
    FieldSlices(s, yt, sep, mt, dt, junk);
  }

  /** A separator text at `i` is the layout's separator appearing there. */
  lemma SeparatorTextAt(l: Layout, s: string, i: nat)
    requires i + |Separator(l)| <= |s| && s[i..i + |Separator(l)|] == Separator(l)
    ensures SeparatorAt(l, s, i)
  {
    if l != Compact {
      assert s[i] == s[i..i + |Separator(l)|][0];
    }
  }

  /** The year of a spelling is spanned by `\d\d\d\d`, and the separators
      follow the year and the month. */
  lemma YearAndSeparators(d: Date, sp: Spelling, junk: string)
    requires Spellable(d)
    ensures var s, sep := Spell(d, sp) + junk, Separator(sp.layout);
            && FirstAlternativeSpans(Year, s, 0, 4, 0)
            && SeparatorAt(sp.layout, s, 4)
            && SeparatorAt(sp.layout, s, 4 + |sep| + |MonthText(d.month, sp.padMonth)|)
  {
    var s, sep := Spell(d, sp) + junk, Separator(sp.layout);
    SpellingSlices(d, sp, junk);
    PadDigitsValue(d.year, 4);
    assert s[0..4] == PadDigits(d.year, 4);
    assert s[0] == s[0..4][0] && s[1] == s[0..4][1] && s[2] == s[0..4][2] && s[3] == s[0..4][3];
    SeparatorTextAt(sp.layout, s, 4);
    SeparatorTextAt(sp.layout, s, 4 + |sep| + |MonthText(d.month, sp.padMonth)|);
  }

  /** The month of an unambiguous spelling is spanned by the first `%m`
      alternative that matches there. */
  lemma MonthSpan(d: Date, sp: Spelling, junk: string) returns (km: nat)
    requires Spellable(d) && Unambiguous(d, sp)
    ensures FirstAlternativeSpans(Month, Spell(d, sp) + junk, 4 + |Separator(sp.layout)|,
                                  |MonthText(d.month, sp.padMonth)|, km)
  {
    var s, iM := Spell(d, sp) + junk, 4 + |Separator(sp.layout)|;
    SpellingSlices(d, sp, junk);
    if |MonthText(d.month, sp.padMonth)| == 1 && d.month == 1 && iM + 1 < |s| {
      AfterUnpaddedJanuary(d, sp);
    }
    km := MonthAlternative(d.month, sp.padMonth, s, iM);
  }

  /** The day of a spelling followed by the end of the input or a non-digit
      is spanned by the first `%d` alternative that matches there. */
  lemma DaySpan(d: Date, sp: Spelling, junk: string) returns (kd: nat)
    requires Spellable(d)
    requires junk == [] || !IsDigit(junk[0])
    ensures var sep := Separator(sp.layout);
            FirstAlternativeSpans(Day, Spell(d, sp) + junk, 4 + |sep| + |MonthText(d.month, sp.padMonth)| + |sep|,
                                  |DayText(d.day, sp.dayStyle)|, kd)
  {
    var sep := Separator(sp.layout);
    SpellingSlices(d, sp, junk);
    kd := DayAlternative(d.day, sp.dayStyle, Spell(d, sp) + junk, 4 + |sep| + |MonthText(d.month, sp.padMonth)| + |sep|);
  }

  /** The fields of an unambiguous spelling followed by a non-digit are
      laid out as the spelling's layout expects, and the spelling ends where
      the match of that layout's pattern ends. */
  lemma SpellingFields(d: Date, sp: Spelling, junk: string) returns (km: nat, kd: nat)
    requires Spellable(d) && Unambiguous(d, sp)
    requires junk == [] || !IsDigit(junk[0])
    ensures FieldsAt(sp.layout, Spell(d, sp) + junk, |MonthText(d.month, sp.padMonth)|, |DayText(d.day, sp.dayStyle)|, km, kd)
    ensures |Spell(d, sp)| == FieldsEnd(sp.layout, |MonthText(d.month, sp.padMonth)|, |DayText(d.day, sp.dayStyle)|)
  {
    SpellingSlices(d, sp, junk);
    YearAndSeparators(d, sp, junk);
    km := MonthSpan(d, sp, junk);
    kd := DaySpan(d, sp, junk);
  }

  /** `int()` of the year, month and day fields of `s`, at the offsets
      `FieldSpans` gives, are the fields of `date`. */
  predicate FieldValuesAt(l: Layout, s: string, wm: nat, wd: nat, date: Date) {
    var n := |Separator(l)|;
    && 4 + n + wm + n + wd <= |s|
    && IntOf(s[0..4]) == date.year
    && IntOf(s[4 + n..4 + n + wm]) == date.month
    && IntOf(s[4 + n + wm + n..4 + n + wm + n + wd]) == date.day
  }

  /** The groups captured from fields at the offsets `FieldSpans` gives
      name the date the fields' texts denote, if it exists. */
  lemma DateOfFields(l: Layout, s: string, wm: nat, wd: nat, date: Date)
    requires FieldValuesAt(l, s, wm, wd, date)
    ensures GroupsWithin(FieldSpans(l, wm, wd), |s|)
    ensures DateOf(s, FieldSpans(l, wm, wd)) == if ValidDate(date) then Some(date) else None
  {
  }

  /** A text whose fields are laid out as a layout's pattern expects parses
      under that layout's format exactly when nothing follows the day, and
      then to the date its captured groups name. */
  lemma StrptimeOfFields(l: Layout, s: string, wm: nat, wd: nat, km: nat, kd: nat, date: Option<Date>)
    requires FieldsAt(l, s, wm, wd, km, kd)
    requires GroupsWithin(FieldSpans(l, wm, wd), |s|)
    requires DateOf(s, FieldSpans(l, wm, wd)) == date
    ensures Strptime(s, FormatOf(l)) == if FieldsEnd(l, wm, wd) == |s| then date else None
  {
    CompileLayout(l);
    MatchFields(l, s, wm, wd, km, kd);
  }

  /** `int()` of the year, month and day fields of a spelling gives back
      the date's fields. */
  lemma SpellingFieldValues(d: Date, sp: Spelling, junk: string)
    requires Spellable(d)
    ensures FieldValuesAt(sp.layout, Spell(d, sp) + junk, |MonthText(d.month, sp.padMonth)|, |DayText(d.day, sp.dayStyle)|, d)
  {
    SpellingSlices(d, sp, junk);
    PaddedFieldValue(d.year, 4);
    MonthFieldValue(d.month, sp.padMonth);
    DayFieldValue(d.day, sp.dayStyle);
  }

  /** The groups captured from a spelling name its date, if that date
      exists. */
  lemma SpellingDate(d: Date, sp: Spelling, junk: string)
    requires Spellable(d)
    ensures var s, wm, wd := Spell(d, sp) + junk, |MonthText(d.month, sp.padMonth)|, |DayText(d.day, sp.dayStyle)|;
            && GroupsWithin(FieldSpans(sp.layout, wm, wd), |s|)
            && DateOf(s, FieldSpans(sp.layout, wm, wd)) == if ValidDate(d) then Some(d) else None
  {
    SpellingFieldValues(d, sp, junk);
    DateOfFields(sp.layout, Spell(d, sp) + junk, |MonthText(d.month, sp.padMonth)|, |DayText(d.day, sp.dayStyle)|, d);
  }

  /** A spelling parses under its own layout's format exactly when nothing
      follows it and the date exists. */
  lemma StrptimeOwnFormat(d: Date, sp: Spelling, junk: string)
    requires Spellable(d) && Unambiguous(d, sp)
    requires junk == [] || !IsDigit(junk[0])
    ensures Strptime(Spell(d, sp) + junk, FormatOf(sp.layout))
         == if junk == [] && ValidDate(d) then Some(d) else None
  {
    var wm, wd := |MonthText(d.month, sp.padMonth)|, |DayText(d.day, sp.dayStyle)|;
    var km, kd := SpellingFields(d, sp, junk);
    SpellingDate(d, sp, junk);
    StrptimeOfFields(sp.layout, Spell(d, sp) + junk, wm, wd, km, kd, if ValidDate(d) then Some(d) else None);
  }

  /** A text of four digits followed by a character the layout's pattern
      does not accept there fails that layout's format. */
  lemma YearThenMismatch(l: Layout, s: string)
    requires |s| > 4 && AllDigits(s[..4])
    requires l != Compact ==> s[4] != Separator(l)[0]
    requires l == Compact ==> !IsDigit(s[4])
    ensures Strptime(s, FormatOf(l)) == None
  {
    CompileLayout(l);
    var g1 := Bind(NoGroups, Year, Span(0, 4));
    if l == Compact {
      NoAlternativeMatches(Month, 0, SeparatorThen(l, Group(Day, End)), s, 4, g1);
    }
    assert MatchPattern(SeparatorThen(l, MonthDayPattern(l)), s, 4, g1) == None;
    assert AlternativeMatches(Year, 0, s, 0);
    assert MatchAlternatives(Year, 1, SeparatorThen(l, MonthDayPattern(l)), s, 0, NoGroups) == None;
  }

  /** The formats other than a spelling's own all reject it. */
  lemma OtherFormatsReject(d: Date, sp: Spelling, junk: string, l: Layout)
    requires Spellable(d)
    requires l != sp.layout
    ensures Strptime(Spell(d, sp) + junk, FormatOf(l)) == None
  {
    var s := Spell(d, sp) + junk;
    assert s[..4] == PadDigits(d.year, 4);
    var mt := MonthText(d.month, sp.padMonth);
    if sp.layout == Compact {
      assert s[4] == mt[0];
    } else {
      assert s[4] == Separator(sp.layout)[0];
    }
    YearThenMismatch(l, s);
  }

  /** Of the three working formats, only a spelling's own layout's format
      can parse it. */
  lemma ParseUnderLayout(d: Date, sp: Spelling, junk: string, l: Layout)
    requires Spellable(d) && Unambiguous(d, sp)
    requires junk == [] || !IsDigit(junk[0])
    ensures Strptime(Spell(d, sp) + junk, FormatOf(l))
         == if l == sp.layout && junk == [] && ValidDate(d) then Some(d) else None
  {
    if l == sp.layout {
      StrptimeOwnFormat(d, sp, junk);
    } else {
      OtherFormatsReject(d, sp, junk, l);
    }
  }

  /** When every other layout's format rejects `s`, trying the formats in
      order yields what `l`'s format yields. */
  lemma FirstParseUnderLayout(s: string, l: Layout)
    requires forall o: Layout :: o != l ==> Strptime(s, FormatOf(o)) == None
    ensures FirstParse(s, DateFormats) == Strptime(s, FormatOf(l))
  {
    FirstParseInOrder(s);
    assert FormatOf(Dashed) == DashedFormat && FormatOf(Slashed) == SlashedFormat && FormatOf(Compact) == CompactFormat;
  }

  /** Trying the formats in order finds a spelling under its own layout's
      format. */
  lemma FirstParseOfSpelling(d: Date, sp: Spelling, junk: string)
    requires Spellable(d) && Unambiguous(d, sp)
    requires junk == [] || !IsDigit(junk[0])
    ensures FirstParse(Spell(d, sp) + junk, DateFormats)
         == if junk == [] && ValidDate(d) then Some(d) else None
  {
    var s := Spell(d, sp) + junk;
    StrptimeOwnFormat(d, sp, junk);
    forall o: Layout | o != sp.layout ensures Strptime(s, FormatOf(o)) == None {
      OtherFormatsReject(d, sp, junk, o);
    }
    FirstParseUnderLayout(s, sp.layout);
  }

  lemma SpellingTrimmed(d: Date, sp: Spelling)
    requires Spellable(d)
    ensures Trimmed(Spell(d, sp))
  {
    var s := Spell(d, sp);
    assert s[0] == PadDigits(d.year, 4)[0];
    var t := DayText(d.day, sp.dayStyle);
    assert s[|s| - 1] == t[|t| - 1];
    assert IsDigit(t[|t| - 1]);
  }

  /** Every unambiguous spelling of a date, in any layout and with any
      surrounding whitespace, normalises to that date's canonical text when
      the date exists (so the unambiguous dashed, slashed and compact
      spellings of one date agree), and to `None` when it does not (30 February, 29 February of a
      common year, year 0). */
  lemma NormalizeSpelling(d: Date, sp: Spelling, pre: string, post: string)
    requires Spellable(d) && Unambiguous(d, sp)
    requires AllSpace(pre) && AllSpace(post)
    ensures NormalizeDate(pre + Spell(d, sp) + post)
         == if ValidDate(d) then Some(FormatIso(d)) else None
  {
    SpellingTrimmed(d, sp);
    StripSurrounded(pre, Spell(d, sp), post);
    assert Spell(d, sp) + [] == Spell(d, sp);
    FirstParseOfSpelling(d, sp, []);
  }

  /** A spelling followed by text that does not start with a digit and
      does not end in whitespace normalises to `None`: the trailing text,
      such as ` 周五` or `(Fri)`, is unconverted data. */
  lemma NormalizeRejectsTrailingText(d: Date, sp: Spelling, junk: string, pre: string, post: string)
    requires Spellable(d) && Unambiguous(d, sp)
    requires junk != [] && !IsDigit(junk[0]) && !IsSpace(junk[|junk| - 1])
    requires AllSpace(pre) && AllSpace(post)
    ensures NormalizeDate(pre + Spell(d, sp) + junk + post) == None
  {
    var s := Spell(d, sp) + junk;
    SpellingTrimmed(d, sp);
    assert s[|s| - 1] == junk[|junk| - 1];
    assert Trimmed(s);
    assert pre + Spell(d, sp) + junk + post == pre + s + post;
    StripSurrounded(pre, s, post);
    FirstParseOfSpelling(d, sp, junk);
  }

  /** A compact text with an unpadded January followed by a day written
      from `0`, `1` or `2` also reads as a two-digit month from October to
      December, and `%m` tries two digits first: `2024111` is 1 November
      2024, not 11 January. */
  lemma CompactPrefersTwoDigitMonth(y: int, m: int, dd: int)
    requires MinYear <= y <= MaxYear && 10 <= m <= 12 && 1 <= dd <= 9
    ensures var late, january := Date(y, m, dd), Date(y, 1, 10 * (m - 10) + dd);
            && ValidDate(late) && ValidDate(january) && late != january
            && Spell(january, Spelling(Compact, false, ZeroPadded)) == Spell(late, Spelling(Compact, true, Unpadded))
            && NormalizeDate(Spell(january, Spelling(Compact, false, ZeroPadded))) == Some(FormatIso(late))
  {
    var late, january := Date(y, m, dd), Date(y, 1, 10 * (m - 10) + dd);
    var t := Spell(late, Spelling(Compact, true, Unpadded));
    assert january.day / 10 == m - 10 && january.day % 10 == dd;
    assert m / 10 == 1 && m % 10 == m - 10;
    var spJ, spL := Spelling(Compact, false, ZeroPadded), Spelling(Compact, true, Unpadded);
    var sep := Separator(Compact);
    assert MonthText(1, false) + DayText(january.day, ZeroPadded) == MonthText(m, true) + DayText(dd, Unpadded);
    assert MonthDayText(january, spJ) == MonthText(1, false) + sep + DayText(january.day, ZeroPadded);
    assert MonthDayText(january, spJ) == MonthDayText(late, spL);
    assert [] + t + [] == t;
    NormalizeSpelling(late, Spelling(Compact, true, Unpadded), [], []);
  }

  /** The compact spellings of January that `Unambiguous` excludes but that
      still read as January: January 10 and 20, and January 1 and 2 with an
      unpadded day. */
  predicate JanuaryByBacktracking(d: Date, sp: Spelling) {
    && sp.layout == Compact && !sp.padMonth && d.month == 1
    && (d.day == 10 || d.day == 20 || (sp.dayStyle == Unpadded && (d.day == 1 || d.day == 2)))
  }

  /** After a two-digit month in `YYYY1D` or `YYYY1D0`, `%d` sees the end
      of the text or a lone `0`, and accepts neither. */
  lemma DayFailsAtSix(s: string, g: Groups)
    requires (|s| == 6 || |s| == 7) && (|s| == 7 ==> s[6] == '0')
    ensures MatchPattern(Group(Day, End), s, 6, g) == None
  {
    NoAlternativeMatches(Day, 0, End, s, 6, g);
  }

  /** In a compact text `YYYY1D` or `YYYY1D0` whose `D` is `1` or `2`, `%m`
      first takes `11` or `12`, after which `%d` fails (`DayFailsAtSix`);
      `%m` then falls back to the one-digit `1`, and `%d` takes the rest as
      alternative `kd`. */
  lemma MonthBacktracks(s: string, g: Groups, kd: nat)
    requires (|s| == 6 || |s| == 7)
    requires s[4] == '1' && '1' <= s[5] <= '2' && (|s| == 7 ==> s[6] == '0')
    requires FirstAlternativeSpans(Day, s, 5, |s| - 5, kd)
    ensures MatchPattern(MonthDayPattern(Compact), s, 4, g)
         == Some(Match(|s|, MonthDaySpans(g, 4, 1, 5, |s| - 5)))
  {
    var wd := |s| - 5;
    var next := Group(Day, End);
    assert AlternativeMatches(Month, 0, s, 4);
    DayFailsAtSix(s, Bind(g, Month, Span(4, 6)));
    assert !AlternativeMatches(Month, 1, s, 4) && AlternativeMatches(Month, 2, s, 4);
    var g2 := Bind(g, Month, Span(4, 5));
    var m := Some(Match(5 + wd, Bind(g2, Day, Span(5, 5 + wd))));
    MatchGroup(Day, End, s, 5, g2, wd, kd, m);
    assert MatchAlternatives(Month, 2, next, s, 4, g) == m;
  }

  /** The whole compact pattern then matches all of the text, with the
      month spanning one character. */
  lemma CompactMatchBacktracks(s: string, kd: nat)
    requires (|s| == 6 || |s| == 7) && AllDigits(s[..4])
    requires s[4] == '1' && '1' <= s[5] <= '2' && (|s| == 7 ==> s[6] == '0')
    requires FirstAlternativeSpans(Day, s, 5, |s| - 5, kd)
    ensures MatchPattern(PatternOf(Compact), s, 0, NoGroups) == Some(Match(|s|, FieldSpans(Compact, 1, |s| - 5)))
  {
    var g1 := Bind(NoGroups, Year, Span(0, 4));
    var m := Some(Match(|s|, MonthDaySpans(g1, 4, 1, 5, |s| - 5)));
    assert MatchPattern(MonthDayPattern(Compact), s, 4, g1) == m by {
      MonthBacktracks(s, g1, kd);
    }
    assert AlternativeMatches(Year, 0, s, 0);
    MatchGroup(Year, MonthDayPattern(Compact), s, 0, NoGroups, 4, 0, m);
  }

  /** The spellings of `JanuaryByBacktracking` have the shape
      `MonthBacktracks` needs. */
  lemma JanuarySpelling(d: Date, sp: Spelling) returns (kd: nat)
    requires ValidDate(d) && JanuaryByBacktracking(d, sp)
    ensures var s := Spell(d, sp);
            && |s| == 5 + |DayText(d.day, sp.dayStyle)| && (|s| == 6 || |s| == 7) && AllDigits(s[..4])
            && s[4] == '1' && '1' <= s[5] <= '2' && (|s| == 7 ==> s[6] == '0')
            && FirstAlternativeSpans(Day, s, 5, |s| - 5, kd)
  {
    var s, dt := Spell(d, sp), DayText(d.day, sp.dayStyle);
    PadDigitsValue(d.year, 4);
    assert MonthDayText(d, sp) == [DigitChar(1)] + dt;
    assert s == PadDigits(d.year, 4) + ([DigitChar(1)] + dt);
    assert s[..4] == PadDigits(d.year, 4) && s[5..] == dt;
    assert d.day / 10 in {0, 1, 2} && (d.day >= 10 ==> d.day % 10 == 0);
    assert s[5..5 + |dt|] == dt;
    kd := DayAlternative(d.day, sp.dayStyle, s, 5);
  }

  /** Such a spelling parses to its date under the compact format. */
  lemma StrptimeJanuary(d: Date, sp: Spelling)
    requires ValidDate(d) && JanuaryByBacktracking(d, sp)
    ensures Strptime(Spell(d, sp), CompactFormat) == Some(d)
  {
    var s, wd := Spell(d, sp), |DayText(d.day, sp.dayStyle)|;
    var kd := JanuarySpelling(d, sp);
    CompactMatchBacktracks(s, kd);
    CompileLayout(Compact);
    assert s + [] == s;
    SpellingFieldValues(d, sp, []);
    DateOfFields(Compact, s, 1, wd, d);
  }

  /** The loop over the formats finds such a spelling's date: the dashed
      and slashed formats reject it, and the compact one parses it. */
  lemma FirstParseJanuary(d: Date, sp: Spelling)
    requires ValidDate(d) && JanuaryByBacktracking(d, sp)
    ensures FirstParse(Spell(d, sp), DateFormats) == Some(d)
  {
    var s := Spell(d, sp);
    StrptimeJanuary(d, sp);
    assert s + [] == s;
    forall o: Layout | o != Compact ensures Strptime(s, FormatOf(o)) == None {
      OtherFormatsReject(d, sp, [], o);
    }
    assert FormatOf(Compact) == CompactFormat;
    FirstParseUnderLayout(s, Compact);
  }

  /** Those spellings normalise to their own January date, but only because
      `%m` backtracks. */
  lemma NormalizeJanuaryByBacktracking(d: Date, sp: Spelling)
    requires ValidDate(d) && JanuaryByBacktracking(d, sp)
    ensures !Unambiguous(d, sp)
    ensures NormalizeDate(Spell(d, sp)) == Some(FormatIso(d))
  {
    var s := Spell(d, sp);
    assert FirstParse(Strip(s), DateFormats) == Some(d) by {
      assert Strip(s) == s by {
        SpellingTrimmed(d, sp);
        assert [] + s + [] == s;
        StripSurrounded([], s, []);
      }
      FirstParseJanuary(d, sp);
    }
    assert '1' <= DayText(d.day, sp.dayStyle)[0] <= '2';
  }

  /** At a month field that starts with `13` to `19`, `%m` can take only
      the `1`, and then the `-` that must follow is missing. */
  lemma DashedMonthAbove12Fails(s: string, g: Groups)
    requires |s| >= 7 && s[5] == '1' && '3' <= s[6] <= '9'
    ensures MatchPattern(MonthDayPattern(Dashed), s, 5, g) == None
  {
    var afterMonth := SeparatorThen(Dashed, Group(Day, End));
    assert MatchPattern(afterMonth, s, 6, Bind(g, Month, Span(5, 6))) == None;
    assert !AlternativeMatches(Month, 0, s, 5) && !AlternativeMatches(Month, 1, s, 5);
    assert MatchAlternatives(Month, 2, afterMonth, s, 5, g) == None;
  }

  /** A dashed text whose month field starts with `13` to `19` does not parse
      under the dashed format. */
  lemma DashedRejectsMonthAbove12(s: string)
    requires |s| >= 7 && AllDigits(s[..4]) && s[4] == '-'
    requires s[5] == '1' && '3' <= s[6] <= '9'
    ensures Strptime(s, DashedFormat) == None
  {
    CompileLayout(Dashed);
    var g1 := Bind(NoGroups, Year, Span(0, 4));
    var next := SeparatorThen(Dashed, MonthDayPattern(Dashed));
    DashedMonthAbove12Fails(s, g1);
    assert MatchPattern(next, s, 4, g1) == None;
    assert AlternativeMatches(Year, 0, s, 0);
    assert MatchAlternatives(Year, 1, next, s, 0, NoGroups) == None;
  }

  /** A dashed text whose month field starts with `13` to `19` matches no
      format, so `2024-13-01` normalises to `None`. */
  lemma NormalizeRejectsMonthAbove12(s: string)
    requires |s| >= 7 && AllDigits(s[..4]) && s[4] == '-'
    requires s[5] == '1' && '3' <= s[6] <= '9'
    requires Trimmed(s)
    ensures NormalizeDate(s) == None
  {
    assert [] + s + [] == s;
    StripSurrounded([], s, []);
    FirstParseInOrder(s);
    DashedRejectsMonthAbove12(s);
    YearThenMismatch(Slashed, s);
    YearThenMismatch(Compact, s);
  }

  /** The canonical text is itself the canonical spelling of its date. */
  lemma FormatIsoIsCanonicalSpelling(d: Date)
    requires ValidDate(d)
    ensures Spellable(d) && FormatIso(d) == Spell(d, Canonical)
  {
    PadTwo(d.month);
    PadTwo(d.day);
  }

  /** The canonical text of an existing date normalises to itself. */
  lemma NormalizeCanonical(d: Date)
    requires ValidDate(d)
    ensures NormalizeDate(FormatIso(d)) == Some(FormatIso(d))
  {
    FormatIsoIsCanonicalSpelling(d);
    assert [] + Spell(d, Canonical) + [] == FormatIso(d);
    NormalizeSpelling(d, Canonical, [], []);
  }

  /** `normalize_date` is idempotent: its output normalises to itself. */
  lemma NormalizeIdempotent(raw: string)
    requires NormalizeDate(raw).Some?
    ensures NormalizeDate(NormalizeDate(raw).value) == NormalizeDate(raw)
  {
    var t := NormalizeDate(raw).value;
    NormalizeDateIsIso(raw);
    FormatIsoOfFields(t);
    NormalizeCanonical(IsoFields(t));
  }
}

=== FILE: options.dfy ===
/** Python's `Optional[T]`: a value or `None`. */
module Options {

  datatype Option<+T> = None | Some(value: T) {

    /** The wrapped value, or `default` when there is none. */
    function GetOr(default: T): T {
      match this
      case Some(v) => v
      case None => default
    }
  }
}

=== FILE: roster.dfy ===
/**
 The row-matching part of `get_today_duty`: the schedule rows arrive already
 read (one ordered column-to-value map per CSV record), and the date to look
 for is a parameter rather than a clock read. The first row whose `date` cell
 normalises to that date supplies the duty: every other column whose value is
 not blank, with the value stripped.
 */
module Roster {

  import opened Options
  import opened Text
  import opened Calendar
  import opened DateNormalizer

  /** One `column: value` pair of a schedule row. */
  datatype Entry = Entry(key: string, value: string)

  /** A row as `csv.DictReader` yields it: its columns in header order. The
      same type holds the duty dictionary built from a row. */
  type Row = seq<Entry>

  const DateColumn: string := "date"

  function Keys(row: Row): seq<string> {
    seq(|row|, i requires 0 <= i < |row| => row[i].key)
  }

  /** No column appears twice, as in a Python dict. */
  predicate IsDict(row: Row) {
    forall i, j :: 0 <= i < j < |row| ==> row[i].key != row[j].key
  }

  /** `row.get(key)`. */
  function Lookup(row: Row, key: string): (r: Option<string>)
    ensures r.None? <==> key !in Keys(row)
    ensures r.Some? ==> Entry(key, r.value) in row
  {
    if row == [] then None
    else if row[0].key == key then
      assert Keys(row)[0] == key;
      Some(row[0].value)
    else
      assert Keys(row) == [row[0].key] + Keys(row[1..]);
      Lookup(row[1..], key)
  }

  /** In a dict, looking up a column gives that column's value. */
  lemma {:induction false} LookupAt(row: Row, i: nat)
    requires IsDict(row) && i < |row|
    ensures Lookup(row, row[i].key) == Some(row[i].value)
    decreases i
  {
    if i > 0 {
      assert row[0].key != row[i].key;
      assert row[1..][i - 1] == row[i];
      LookupAt(row[1..], i - 1);
    }
  }

  /** `row.get("date", "")`. */
  function DateCell(row: Row): string {
    Lookup(row, DateColumn).GetOr("")
  }

  /** The canonical date a row is scheduled for; `None` when its date cell
      does not parse. */
  function RowDate(row: Row): Option<string> {
    NormalizeDate(DateCell(row))
  }

  /** The row is the duty row for `today` (a `YYYY-MM-DD` text). */
  predicate IsDutyFor(row: Row, today: string) {
    RowDate(row) == Some(today)
  }

  /** The duty dictionary of a row: its columns other than `date` whose
      value is not blank once stripped, each with the stripped value, in
      column order. */
  function DutyOf(row: Row): (duty: Row)
    ensures |duty| <= |row|
    ensures forall e :: e in duty ==> && e.key != DateColumn && e.value != []
                                      && exists i :: 0 <= i < |row| && e == Entry(row[i].key, Strip(row[i].value))
  {
    if row == [] then []
    else
      var v := Strip(row[0].value);
      var rest := DutyOf(row[1..]);
      assert forall e :: e in rest ==> exists i :: 0 <= i < |row| && e == Entry(row[i].key, Strip(row[i].value)) by {
        forall e | e in rest ensures exists i :: 0 <= i < |row| && e == Entry(row[i].key, Strip(row[i].value)) {
          var i :| 0 <= i < |row[1..]| && e == Entry(row[1..][i].key, Strip(row[1..][i].value));
          assert row[1..][i] == row[i + 1];
        }
      }
      if row[0].key != DateColumn && v != [] then [Entry(row[0].key, v)] + rest else rest
  }

  /** Building the duty works column by column, so it keeps the row's column
      order. */
  lemma {:induction false} DutyOfAppend(a: Row, b: Row)
    ensures DutyOf(a + b) == DutyOf(a) + DutyOf(b)
    decreases |a|
  {
    if a != [] {
      assert (a + b)[1..] == a[1..] + b;
      DutyOfAppend(a[1..], b);
    } else {
      assert a + b == b;
    }
  }

  /** Every duty value is a stripped text: it neither starts nor ends with
      whitespace. */
  lemma DutyValuesTrimmed(row: Row)
    ensures forall e :: e in DutyOf(row) ==> Trimmed(e.value)
  {
    forall e | e in DutyOf(row) ensures Trimmed(e.value) {
      var i :| 0 <= i < |row| && e == Entry(row[i].key, Strip(row[i].value));
      StripIsTrimmedInfix(row[i].value);
    }
  }

  /** Putting an entry whose key is new in front of a dict keeps it a dict. */
  lemma DictCons(e: Entry, rest: Row)
    requires IsDict(rest)
    requires forall x :: x in rest ==> x.key != e.key
    ensures IsDict([e] + rest)
  {
    var row := [e] + rest;
    forall i, j | 0 <= i < j < |row| ensures row[i].key != row[j].key {
      assert row[j] == rest[j - 1] && row[j] in rest;
      if i > 0 { assert row[i] == rest[i - 1]; }
    }
  }

  /** A dict's first key appears nowhere in the rest of it. */
  lemma HeadKeyNotInTail(row: Row)
    requires IsDict(row) && row != []
    ensures forall x :: x in row[1..] ==> x.key != row[0].key
  {
    forall x | x in row[1..] ensures x.key != row[0].key {
      var i :| 0 <= i < |row[1..]| && row[1..][i] == x;
      assert row[i + 1] == x;
    }
  }

  /** The duty takes its keys from the row. */
  lemma DutyKeysFromRow(row: Row, key: string)
    requires forall x :: x in row ==> x.key != key
    ensures forall e :: e in DutyOf(row) ==> e.key != key
  {
    forall e | e in DutyOf(row) ensures e.key != key {
      var i :| 0 <= i < |row| && e == Entry(row[i].key, Strip(row[i].value));
      assert row[i] in row;
    }
  }

  /** The duty of a dict is a dict: its keys are some of the row's keys, so
      none repeats. */
  lemma {:induction false} DutyIsDict(row: Row)
    requires IsDict(row)
    ensures IsDict(DutyOf(row))
    decreases |row|
  {
    if row != [] {
      var rest := DutyOf(row[1..]);
      assert IsDict(row[1..]) by {
        forall i, j | 0 <= i < j < |row[1..]| ensures row[1..][i].key != row[1..][j].key {
          assert row[1..][i] == row[i + 1] && row[1..][j] == row[j + 1];
        }
      }
      DutyIsDict(row[1..]);
      HeadKeyNotInTail(row);
      DutyKeysFromRow(row[1..], row[0].key);
      var v := Strip(row[0].value);
      if row[0].key != DateColumn && v != [] {
        DictCons(Entry(row[0].key, v), rest);
      }
    }
  }

  /** What the duty holds for each column: nothing for `date`, nothing for a
      column the row lacks or whose value is blank, and otherwise the
      column's value, stripped. */
  lemma {:induction false} DutyLookup(row: Row, key: string)
    requires IsDict(row)
    ensures Lookup(DutyOf(row), key)
         == if key == DateColumn then None
            else match Lookup(row, key)
                 case None => None
                 case Some(v) => if Strip(v) == [] then None else Some(Strip(v))
    decreases |row|
  {
    if row != [] {
      DutyLookup(row[1..], key);
      if row[0].key == key {
        assert Lookup(row[1..], key).None? by {
          forall i | 0 <= i < |row[1..]| ensures row[1..][i].key != key {
            assert row[1..][i] == row[i + 1];
          }
          assert key !in Keys(row[1..]);
        }
      }
    }
  }

  /** The position of the first row, in schedule order, that `matches`
      accepts. */
  function FirstMatch(rows: seq<Row>, matches: Row -> bool): (r: Option<nat>)
    ensures r.None? <==> forall i :: 0 <= i < |rows| ==> !matches(rows[i])
    ensures r.Some? ==> && r.value < |rows| && matches(rows[r.value])
                        && forall j :: 0 <= j < r.value ==> !matches(rows[j])
    decreases |rows|
  {
    if rows == [] then None
    else if matches(rows[0]) then Some(0)
    else
      match FirstMatch(rows[1..], matches)
      case None => None
      case Some(i) => Some(i + 1)
  }

  /** Once a row matches, the rows after it are never looked at. */
  lemma {:induction false} FirstMatchIgnoresLater(rows: seq<Row>, later: seq<Row>, matches: Row -> bool)
    requires FirstMatch(rows, matches).Some?
    ensures FirstMatch(rows + later, matches) == FirstMatch(rows, matches)
    decreases |rows|
  {
    assert (rows + later)[0] == rows[0];
    if !matches(rows[0]) {
      assert (rows + later)[1..] == rows[1..] + later;
      FirstMatchIgnoresLater(rows[1..], later, matches);
    }
  }

  /** Rows that do not match are passed over. */
  lemma {:induction false} FirstMatchSkips(skipped: seq<Row>, rows: seq<Row>, matches: Row -> bool)
    requires forall i :: 0 <= i < |skipped| ==> !matches(skipped[i])
    ensures FirstMatch(skipped + rows, matches)
         == match FirstMatch(rows, matches)
            case None => None
            case Some(i) => Some(|skipped| + i)
    decreases |skipped|
  {
    if skipped == [] {
      assert skipped + rows == rows;
    } else {
      assert (skipped + rows)[0] == skipped[0];
      assert (skipped + rows)[1..] == skipped[1..] + rows;
      assert forall i :: 0 <= i < |skipped[1..]| ==> !matches(skipped[1..][i]) by {
        forall i | 0 <= i < |skipped[1..]| ensures !matches(skipped[1..][i]) {
          assert skipped[1..][i] == skipped[i + 1];
        }
      }
      FirstMatchSkips(skipped[1..], rows, matches);
    }
  }

  /** The test the loop applies to each row. */
  function IsDutyRowFor(today: string): Row -> bool {
    row => IsDutyFor(row, today)
  }

  /** The loop of `get_today_duty`: the duty of the first row, in schedule
      order, whose date normalises to `today`, or `None` when no row does. */
  function SelectDuty(rows: seq<Row>, today: string): (r: Option<Row>)
    ensures r.None? <==> forall i :: 0 <= i < |rows| ==> !IsDutyFor(rows[i], today)
    ensures r.Some? ==> exists i :: && 0 <= i < |rows| && IsDutyFor(rows[i], today) && r.value == DutyOf(rows[i])
                                    && forall j :: 0 <= j < i ==> !IsDutyFor(rows[j], today)
  {
    match FirstMatch(rows, IsDutyRowFor(today))
    case None => None
    case Some(i) => Some(DutyOf(rows[i]))
  }

  /** The selected duty is the duty of a matching row, so it never holds
      the `date` column or an empty value. */
  lemma SelectedDutyHasNames(rows: seq<Row>, today: string)
    requires SelectDuty(rows, today).Some?
    ensures forall e :: e in SelectDuty(rows, today).value ==> e.key != DateColumn && e.value != []
  {
    var i := FirstMatch(rows, IsDutyRowFor(today)).value;
    assert SelectDuty(rows, today).value == DutyOf(rows[i]);
  }

  /** Once a row matches, the rows after it are never looked at. */
  lemma SelectIgnoresLaterRows(rows: seq<Row>, later: seq<Row>, today: string)
    requires SelectDuty(rows, today).Some?
    ensures SelectDuty(rows + later, today) == SelectDuty(rows, today)
  {
    var i := FirstMatch(rows, IsDutyRowFor(today)).value;
    FirstMatchIgnoresLater(rows, later, IsDutyRowFor(today));
    assert (rows + later)[i] == rows[i];
  }

  /** Rows that do not match, among them those whose date cell does not
      parse, are skipped without changing the outcome. */
  lemma SelectSkipsNonMatching(skipped: seq<Row>, rows: seq<Row>, today: string)
    requires forall i :: 0 <= i < |skipped| ==> !IsDutyFor(skipped[i], today)
    ensures SelectDuty(skipped + rows, today) == SelectDuty(rows, today)
  {
    var matches := IsDutyRowFor(today);
    assert forall i :: 0 <= i < |skipped| ==> !matches(skipped[i]);
    FirstMatchSkips(skipped, rows, matches);
    match FirstMatch(rows, matches)
    case None =>
    case Some(i) =>
      assert (skipped + rows)[|skipped| + i] == rows[i];
  }

  /** A row whose date cell does not parse matches no date. */
  lemma UnparseableNeverMatches(row: Row, today: string)
    requires NormalizeDate(DateCell(row)).None?
    ensures !IsDutyFor(row, today)
  {
  }

  /** Only a canonical `YYYY-MM-DD` text of a real date can be matched. */
  lemma SelectNeedsCanonicalToday(rows: seq<Row>, today: string)
    requires !IsIsoDate(today)
    ensures SelectDuty(rows, today) == None
  {
    forall i | 0 <= i < |rows| ensures !IsDutyFor(rows[i], today) {
      NormalizeDateIsIso(DateCell(rows[i]));
    }
  }

  /** A row whose date cell is any unambiguous spelling of a real date, in
      any layout and with any surrounding whitespace, is the duty row for
      exactly that date. */
  lemma SpelledRowMatches(row: Row, d: Date, sp: Spelling, pre: string, post: string, today: Date)
    requires ValidDate(d) && ValidDate(today)
    requires Spellable(d) && Unambiguous(d, sp) && AllSpace(pre) && AllSpace(post)
    requires DateCell(row) == pre + Spell(d, sp) + post
    ensures IsDutyFor(row, FormatIso(today)) <==> d == today
  {
    NormalizeSpelling(d, sp, pre, post);
    if FormatIso(d) == FormatIso(today) {
      assert IsoFields(FormatIso(d)) == IsoFields(FormatIso(today));
    }
  }
}

=== FILE: sender.dfy ===
/**
 `send_reminder`: checks its arguments, builds the positions text, posts one
 template message and classifies the reply into the dictionary it returns.
 The HTTP exchange is not performed here: the reply it would get is a
 parameter, and the request it would send is part of the result.
 */
module Sender {

  import opened Options
  import opened Text
  import opened Roster
  import opened Message

  /** A JSON value as `response.json()` decodes it. Numbers are limited to
      integers. */
  datatype Json =
    | Null
    | Bool(b: bool)
    | Int(i: int)
    | Str(s: string)
    | Array(items: seq<Json>)
    | Object(fields: map<string, Json>)

  /** Python's `value == 0` for a decoded JSON value: `0` and `False` (since
      `False == 0`); `None`, strings, lists and dicts are never equal to 0. */
  predicate IsZero(j: Json) {
    j == Int(0) || j == Bool(false)
  }

  /** The `errcode` values of the failure dictionaries `send_reminder`
      builds itself. */
  const NoValidDutyCode: int := -1
  const NetworkErrorCode: int := -2
  const UnexpectedErrorCode: int := -4

  /** The `errmsg` default when the reply carries none. */
  const UnknownError: string := "未知错误"

  /** The texts `send_reminder` raises or returns for its own failures
      (lines 127, 129 and 137), and the prefix of the message it raises for
      a rejected reply (line 168). */
  const InvalidTokenMessage: string := "无效的access_token"
  const InvalidPositionsMessage: string := "positions必须是非空字典"
  const NoValidDutyMessage: string := "无有效值班信息"
  const ApiErrorPrefix: string := "微信API错误: ["

  /** The end of the `AttributeError` text `'<type>' object has no attribute
      'get'`. */
  const NoGetAttribute: string := "' object has no attribute 'get'"

  /** Why a reminder was not delivered, standing for the `errmsg` text. */
  datatype Reason =
    | InvalidToken                           // ValueError: empty access token
    | InvalidPositions                       // ValueError: empty positions
    | NoValidDuty                            // every name is empty
    | Transport(detail: string)              // a `requests` exception
    | HttpStatus(status: int)                // `raise_for_status()`
    | ApiError(errcode: Json, errmsg: Json)  // a non-zero `errcode`
    | MissingErrcode                         // `result['errcode']` raises KeyError
    | NotAnObject(body: Json)                // the reply is not a dict: `.get` raises

  /** The dictionary `send_reminder` returns: the reply itself when the
      service accepted the message, or an `{errcode, errmsg}` failure. */
  datatype SendResult = Delivered(reply: map<string, Json>) | Failed(errcode: int, reason: Reason)

  /** The template message the script posts: the token goes in the URL, the
      rest in the JSON payload (whose colour strings are constants). */
  datatype Request = Request(token: string, toUser: string, templateId: string, positions: string, date: string)

  /** What posting a request yields: a transport failure (connection error,
      timeout) or an HTTP reply with its decoded JSON body. */
  datatype Response = Unreachable(detail: string) | Reply(status: int, body: Json)

  /** The statuses for which `raise_for_status()` raises `HTTPError`. */
  predicate IsHttpError(status: int) {
    400 <= status < 600
  }

  /** `send_reminder`'s result together with the request it posted, if
      any. */
  datatype Sending = Sending(result: SendResult, request: Option<Request>)

  /** The name of a decoded JSON value's Python type, as an
      `AttributeError` message spells it. */
  function TypeName(j: Json): string {
    match j
    case Null => "NoneType"
    case Bool(_) => "bool"
    case Int(_) => "int"
    case Str(_) => "str"
    case Array(_) => "list"
    case Object(_) => "dict"
  }

  /** `str(j)`, as the message raised at line 168 writes a reply's
      `errcode` and `errmsg`. A list or a dict is written `…`. */
  function JsonText(j: Json): string {
    match j
    case Null => "None"
    case Bool(b) => if b then "True" else "False"
    case Int(i) => IntText(i)
    case Str(s) => s
    case Array(_) => "…"
    case Object(_) => "…"
  }

  /** The `errmsg` of a failure: `str(e)` of the exception caught at lines
      172-180, or the fixed text at line 137. */
  function ErrorMessage(reason: Reason): string {
    match reason
    case InvalidToken => InvalidTokenMessage
    case InvalidPositions => InvalidPositionsMessage
    case NoValidDuty => NoValidDutyMessage
    case Transport(detail) => detail
    case HttpStatus(status) => IntText(status) + (if status < 500 then " Client Error" else " Server Error")
    case ApiError(errcode, errmsg) => ApiErrorPrefix + JsonText(errcode) + "] " + JsonText(errmsg)
    case MissingErrcode => "'errcode'"
    case NotAnObject(body) => "'" + TypeName(body) + NoGetAttribute
  }

  /** `result.get(key)` on the dictionary `send_reminder` returns. */
  function ResultField(r: SendResult, key: string): Option<Json> {
    match r
    case Delivered(reply) => if key in reply then Some(reply[key]) else None
    case Failed(code, reason) =>
      if key == "errcode" then Some(Int(code))
      else if key == "errmsg" then Some(Str(ErrorMessage(reason)))
      else None
  }

  /** The response handling of `send_reminder`. */
  function Classify(response: Response): (r: SendResult)
    ensures r.Delivered? <==> && response.Reply? && !IsHttpError(response.status)
                              && response.body.Object? && "errcode" in response.body.fields
                              && IsZero(response.body.fields["errcode"])
    ensures r.Delivered? ==> r.reply == response.body.fields
    ensures r.Failed? ==> r.errcode == (if r.reason.Transport? || r.reason.HttpStatus? then NetworkErrorCode
                                        else UnexpectedErrorCode)
    ensures response.Unreachable? ==> r == Failed(NetworkErrorCode, Transport(response.detail))
    ensures response.Reply? && IsHttpError(response.status) ==> r == Failed(NetworkErrorCode, HttpStatus(response.status))
    ensures response.Reply? && !IsHttpError(response.status) && !response.body.Object?
            ==> r == Failed(UnexpectedErrorCode, NotAnObject(response.body))
    ensures response.Reply? && !IsHttpError(response.status) && response.body.Object?
            && "errcode" !in response.body.fields
            ==> r == Failed(UnexpectedErrorCode, MissingErrcode)
    ensures response.Reply? && !IsHttpError(response.status) && response.body.Object?
            && "errcode" in response.body.fields && !IsZero(response.body.fields["errcode"])
            ==> && r.Failed? && r.errcode == UnexpectedErrorCode && r.reason.ApiError?
                && r.reason.errcode == response.body.fields["errcode"]
                && r.reason.errmsg == (if "errmsg" in response.body.fields then response.body.fields["errmsg"]
                                       else Str(UnknownError))
  {
    match response
    case Unreachable(detail) => Failed(NetworkErrorCode, Transport(detail))
    case Reply(status, body) =>
      if IsHttpError(status) then Failed(NetworkErrorCode, HttpStatus(status))
      else
        match body
        case Object(fields) =>
          var code := if "errcode" in fields then fields["errcode"] else Int(-1);
          if IsZero(code) then Delivered(fields)
          else if "errcode" in fields then
            Failed(UnexpectedErrorCode, ApiError(fields["errcode"], if "errmsg" in fields then fields["errmsg"] else Str(UnknownError)))
          else Failed(UnexpectedErrorCode, MissingErrcode)
        case _ => Failed(UnexpectedErrorCode, NotAnObject(body))
  }

  /** `send_reminder(access_token, positions)` for recipient `toUser` and
      template `templateId`, with `date` the day the payload names and
      `response` what posting the message would yield. */
  function SendReminder(token: string, positions: Row, toUser: string, templateId: string,
                        date: string, response: Response): (s: Sending)
    ensures s.request.Some? <==> token != [] && positions != [] && exists e :: e in positions && e.value != []
    ensures s.request.Some? ==> s.request.value == Request(token, toUser, templateId, PositionsText(positions), date)
  {
    if token == [] then Sending(Failed(UnexpectedErrorCode, InvalidToken), None)
    else if positions == [] then Sending(Failed(UnexpectedErrorCode, InvalidPositions), None)
    else
      var text := PositionsText(positions);
      PositionsTextEmpty(positions);
      if text == [] then Sending(Failed(NoValidDutyCode, NoValidDuty), None)
      else Sending(Classify(response), Some(Request(token, toUser, templateId, text, date)))
  }

  /* ----------------------------- lemmas ----------------------------- */

  /** An empty token or an empty positions map is rejected with `-4`
      before anything is posted. */
  lemma SendRejectsInvalidArguments(token: string, positions: Row, toUser: string, templateId: string,
                                    date: string, response: Response)
    requires token == [] || positions == []
    ensures var s := SendReminder(token, positions, toUser, templateId, date, response);
            s.request.None? && s.result.Failed? && s.result.errcode == UnexpectedErrorCode
            && (s.result.reason == InvalidToken || s.result.reason == InvalidPositions)
            && ResultField(s.result, "errcode") == Some(Int(-4))
            && ResultField(s.result, "errmsg")
               == Some(Str(if token == [] then "无效的access_token" else "positions必须是非空字典"))
  {
  }

  /** When every name is empty, the result is `{errcode: -1}` and nothing is
      posted. */
  lemma SendWithoutNames(token: string, positions: Row, toUser: string, templateId: string,
                         date: string, response: Response)
    requires token != [] && positions != []
    requires forall e :: e in positions ==> e.value == []
    ensures SendReminder(token, positions, toUser, templateId, date, response)
         == Sending(Failed(NoValidDutyCode, NoValidDuty), None)
    ensures var result := SendReminder(token, positions, toUser, templateId, date, response).result;
            ResultField(result, "errcode") == Some(Int(-1)) && ResultField(result, "errmsg") == Some(Str("无有效值班信息"))
  {
    PositionsTextEmpty(positions);
  }

  /** The dictionary `send_reminder` returns has `errcode` 0 exactly when
      the service's reply was accepted, and then it is that reply. Every
      failure carries `-1`, `-2` or `-4`, never 0. */
  lemma SendSucceedsIff(token: string, positions: Row, toUser: string, templateId: string,
                        date: string, response: Response)
    ensures var s := SendReminder(token, positions, toUser, templateId, date, response);
            var code := ResultField(s.result, "errcode");
            && (code.Some? && IsZero(code.value)
                <==> && s.request.Some? && response.Reply? && !IsHttpError(response.status)
                     && response.body.Object? && "errcode" in response.body.fields
                     && IsZero(response.body.fields["errcode"]))
            && (code.Some? && IsZero(code.value) ==> s.result == Delivered(response.body.fields))
            && (s.result.Failed? ==> s.result.errcode in {NoValidDutyCode, NetworkErrorCode, UnexpectedErrorCode})
  {
  }

  /** A reply without an `errcode` is a failure, as is a non-zero one; the
      failure keeps the reply's `errcode` and `errmsg`. The missing key gives
      the `KeyError` text `'errcode'`; a non-zero code gives the `RuntimeError`
      text that names the code and the reply's `errmsg` (or `未知错误`). */
  lemma ReplyErrcodeRequired(fields: map<string, Json>, status: int)
    requires !IsHttpError(status)
    ensures var r := Classify(Reply(status, Object(fields)));
            && ("errcode" !in fields ==> r == Failed(UnexpectedErrorCode, MissingErrcode))
            && ("errcode" in fields && !IsZero(fields["errcode"]) ==>
                  r.Failed? && r.errcode == UnexpectedErrorCode
                  && r.reason.ApiError? && r.reason.errcode == fields["errcode"])
            && ("errcode" !in fields ==> ResultField(r, "errmsg") == Some(Str("'errcode'")))
            && ("errcode" in fields && fields["errcode"].Int? && fields["errcode"].i != 0 ==>
                  var code := IntText(fields["errcode"].i);
                  && ("errmsg" !in fields ==>
                        ResultField(r, "errmsg") == Some(Str("微信API错误: [" + code + "] " + "未知错误")))
                  && ("errmsg" in fields && fields["errmsg"].Str? ==>
                        ResultField(r, "errmsg") == Some(Str("微信API错误: [" + code + "] " + fields["errmsg"].s))))
  {
  }

  /** A reply that is not a JSON object makes `result.get` raise
      `AttributeError`, whose text names the reply's Python type. */
  lemma NonObjectReply(status: int, body: Json)
    requires !IsHttpError(status) && !body.Object?
    ensures var r := Classify(Reply(status, body));
            && ResultField(r, "errcode") == Some(Int(-4))
            && (body.Array? ==> ResultField(r, "errmsg") == Some(Str("'list" + NoGetAttribute)))
            && (body.Str? ==> ResultField(r, "errmsg") == Some(Str("'str" + NoGetAttribute)))
            && (body == Null ==> ResultField(r, "errmsg") == Some(Str("'NoneType" + NoGetAttribute)))
  {
    assert "'" + "list" == "'list" && "'" + "str" == "'str" && "'" + "NoneType" == "'NoneType";
  }

  /** Transport failures and HTTP error statuses become `{errcode: -2}`. */
  lemma NetworkFailures(response: Response)
    requires response.Unreachable? || IsHttpError(response.status)
    ensures Classify(response).Failed? && Classify(response).errcode == NetworkErrorCode
    ensures response.Unreachable? ==> ResultField(Classify(response), "errmsg") == Some(Str(response.detail))
  {
  }
}

=== FILE: strptime.dfy ===
/**
 The part of Python's `datetime.strptime` the date formats of the reminder
 script exercise. CPython turns a format into a regular expression, one
 group per `%` directive, and matches it with `re.match`: the alternatives of
 a group are tried in their listed order, a later alternative is tried only
 when the rest of the pattern fails after an earlier one, and once a match is
 found any text left over is an error ("unconverted data remains") without
 further backtracking. The matched fields then go through `datetime(...)`,
 which rejects dates that do not exist.
 */
module DateParsing {

  import opened Options
  import opened Text
  import opened Calendar

  /** The directives `%Y`, `%m` and `%d`. */
  datatype Directive = Year | Month | Day

  /** A compiled format: the directives' groups and the characters that must
      appear literally, in order. */
  datatype Pattern = End | Group(directive: Directive, next: Pattern) | Literal(c: char, next: Pattern)

  function DirectiveOf(c: char): Option<Directive> {
    if c == 'Y' then Some(Year)
    else if c == 'm' then Some(Month)
    else if c == 'd' then Some(Day)
    else None
  }

  /** Compiles a format into a pattern. A `%` followed by a character that is
      not a known directive (as in `%-m`), or a `%` at the very end, is a bad
      directive: `strptime` raises `ValueError` before it looks at the input.
      Only the three directives the date formats use are known here. */
  function Compile(fmt: string): Option<Pattern>
    decreases |fmt|
  {
    if fmt == [] then Some(End)
    else if fmt[0] == '%' then
      if |fmt| < 2 || DirectiveOf(fmt[1]).None? then None
      else
        match Compile(fmt[2..])
        case None => None
        case Some(p) => Some(Group(DirectiveOf(fmt[1]).value, p))
    else
      match Compile(fmt[1..])
      case None => None
      case Some(p) => Some(Literal(fmt[0], p))
  }

  /* ------------------------ regular expressions ------------------------ */

  /** The groups CPython's `_strptime.TimeRE` builds for the directives,
      each an ordered list of alternatives:
        `%Y`  `\d\d\d\d`
        `%m`  `1[0-2]|0[1-9]|[1-9]`
        `%d`  `3[01]|[12]\d|0[1-9]|[1-9]| [1-9]`
      (`\d` is restricted to the ASCII digits here.) */
  function AlternativeCount(d: Directive): nat {
    match d
    case Year => 1
    case Month => 3
    case Day => 5
  }

  /** How many characters alternative `k` of directive `d`'s group spans. */
  function AlternativeWidth(d: Directive, k: nat): nat {
    match d
    case Year => 4
    case Month => if k <= 1 then 2 else 1
    case Day => if k == 3 then 1 else 2
  }

  predicate InRange(c: char, lo: char, hi: char) {
    lo <= c <= hi
  }

  /** Alternative `k` of directive `d`'s group matches the characters of `s`
      starting at `i`. */
  predicate AlternativeMatches(d: Directive, k: nat, s: string, i: nat)
    requires k < AlternativeCount(d)
  {
    i + AlternativeWidth(d, k) <= |s| &&
    match d
    case Year =>            // \d\d\d\d
      IsDigit(s[i]) && IsDigit(s[i + 1]) && IsDigit(s[i + 2]) && IsDigit(s[i + 3])
    case Month =>
      if k == 0 then s[i] == '1' && InRange(s[i + 1], '0', '2')        // 1[0-2]
      else if k == 1 then s[i] == '0' && InRange(s[i + 1], '1', '9')   // 0[1-9]
      else InRange(s[i], '1', '9')                                     // [1-9]
    case Day =>
      if k == 0 then s[i] == '3' && InRange(s[i + 1], '0', '1')        // 3[01]
      else if k == 1 then InRange(s[i], '1', '2') && IsDigit(s[i + 1]) // [12]\d
      else if k == 2 then s[i] == '0' && InRange(s[i + 1], '1', '9')   // 0[1-9]
      else if k == 3 then InRange(s[i], '1', '9')                      // [1-9]
      else s[i] == ' ' && InRange(s[i + 1], '1', '9')                  //  [1-9]
  }

  /** Where a group's capture starts and ends in the input, as
      `Match.span()` reports it. */
  datatype Span = Span(start: nat, end: nat)

  /** The span each group captured. */
  datatype Groups = Groups(year: Option<Span>, month: Option<Span>, day: Option<Span>)

  const NoGroups := Groups(None, None, None)

  predicate SpanWithin(t: Option<Span>, n: nat) {
    t.Some? ==> t.value.start <= t.value.end <= n
  }

  /** Every capture lies within the first `n` characters. */
  predicate GroupsWithin(g: Groups, n: nat) {
    SpanWithin(g.year, n) && SpanWithin(g.month, n) && SpanWithin(g.day, n)
  }

  function Bind(g: Groups, d: Directive, t: Span): Groups {
    match d
    case Year => g.(year := Some(t))
    case Month => g.(month := Some(t))
    case Day => g.(day := Some(t))
  }

  /** A successful `re.match`: where the match ends and what it captured. */
  datatype Match = Match(end: nat, groups: Groups)

  /** `re.match` of pattern `p` against `s` from position `i`, with
      backtracking into earlier groups when a later part fails. */
  function MatchPattern(p: Pattern, s: string, i: nat, g: Groups): (r: Option<Match>)
    requires i <= |s|
    ensures r.Some? ==> i <= r.value.end <= |s|
    ensures r.Some? && GroupsWithin(g, i) ==> GroupsWithin(r.value.groups, r.value.end)
    decreases p, 0
  {
    match p
    case End => Some(Match(i, g))
    case Literal(c, next) => if i < |s| && s[i] == c then MatchPattern(next, s, i + 1, g) else None
    case Group(d, next) => MatchAlternatives(d, 0, next, s, i, g)
  }

  /** Tries the alternatives of directive `d`'s group in order, from the
      `k`-th on; the first one after which the pattern `next` also matches
      wins. */
  function MatchAlternatives(d: Directive, k: nat, next: Pattern, s: string, i: nat, g: Groups): (r: Option<Match>)
    requires i <= |s|
    ensures r.Some? ==> i <= r.value.end <= |s|
    ensures r.Some? && GroupsWithin(g, i) ==> GroupsWithin(r.value.groups, r.value.end)
    decreases next, AlternativeCount(d) - k
  {
    if k >= AlternativeCount(d) then None
    else if AlternativeMatches(d, k, s, i) then
      var j := i + AlternativeWidth(d, k);
      match MatchPattern(next, s, j, Bind(g, d, Span(i, j)))
      case Some(m) => Some(m)
      case None => MatchAlternatives(d, k + 1, next, s, i, g)
    else MatchAlternatives(d, k + 1, next, s, i, g)
  }

  /* ----------------------------- strptime ----------------------------- */

  /** `strptime`'s value for a field the format has no directive for. */
  const DefaultYear: int := 1900

  /** `int()` of a group's text, or the default when the format has no
      such group. */
  function GroupValue(s: string, t: Option<Span>, default: int): int
    requires SpanWithin(t, |s|)
  {
    match t
    case Some(sp) => IntOf(s[sp.start..sp.end])
    case None => default
  }

  /** `datetime.strptime(s, fmt)` reduced to its date: `None` where Python
      raises `ValueError` (bad directive, no match, unconverted data, or a
      date `datetime` rejects). */
  function Strptime(s: string, fmt: string): (r: Option<Date>)
    ensures r.Some? ==> ValidDate(r.value)
  {
    match Compile(fmt)
    case None => None
    case Some(p) => ParseWith(p, s)
  }

  /** Matches a compiled format against the whole of `s`. */
  function ParseWith(p: Pattern, s: string): (r: Option<Date>)
    ensures r.Some? ==> ValidDate(r.value)
  {
    match MatchPattern(p, s, 0, NoGroups)
    case None => None
    case Some(m) => if m.end != |s| then None else DateOf(s, m.groups)
  }

  /** The date the captured groups name, if `datetime` accepts it. */
  function DateOf(s: string, g: Groups): (r: Option<Date>)
    requires GroupsWithin(g, |s|)
    ensures r.Some? ==> ValidDate(r.value)
  {
    var d := Date(GroupValue(s, g.year, DefaultYear), GroupValue(s, g.month, 1), GroupValue(s, g.day, 1));
    if ValidDate(d) then Some(d) else None
  }

  /* ------------------------ lemmas about matching ------------------------ */

  /** The first alternative of directive `d`'s group that matches at `i`
      is alternative `k`, and it spans `w` characters. */
  predicate FirstAlternativeSpans(d: Directive, s: string, i: nat, w: nat, k: nat) {
    && k < AlternativeCount(d) && AlternativeWidth(d, k) == w
    && AlternativeMatches(d, k, s, i)
    && forall j :: 0 <= j < k ==> !AlternativeMatches(d, j, s, i)
  }

  /** When alternative `k` is the first from `from` on that matches at `i`
      and the rest of the pattern matches after it, the group takes
      alternative `k`. */
  lemma {:induction false} TakesFirstMatching(d: Directive, from: nat, next: Pattern,
                                              s: string, i: nat, g: Groups, k: nat)
    requires i <= |s| && from <= k < AlternativeCount(d)
    requires forall j :: from <= j < k ==> !AlternativeMatches(d, j, s, i)
    requires AlternativeMatches(d, k, s, i)
    requires MatchPattern(next, s, i + AlternativeWidth(d, k), Bind(g, d, Span(i, i + AlternativeWidth(d, k)))).Some?
    ensures MatchAlternatives(d, from, next, s, i, g)
         == MatchPattern(next, s, i + AlternativeWidth(d, k), Bind(g, d, Span(i, i + AlternativeWidth(d, k))))
    decreases k - from
  {
    if from < k {
      assert !AlternativeMatches(d, from, s, i);
      TakesFirstMatching(d, from + 1, next, s, i, g, k);
    }
  }

  /** A group whose first matching alternative spans `w` characters,
      followed by a pattern that matches after them, takes them. */
  lemma MatchGroup(d: Directive, next: Pattern, s: string, i: nat, g: Groups, w: nat, k: nat, m: Option<Match>)
    requires i <= |s| && FirstAlternativeSpans(d, s, i, w, k)
    requires MatchPattern(next, s, i + w, Bind(g, d, Span(i, i + w))) == m && m.Some?
    ensures MatchPattern(Group(d, next), s, i, g) == m
  {
    TakesFirstMatching(d, 0, next, s, i, g, k);
  }

  /** A successful group match took some alternative `k` that matches at `i`,
      and the rest of the pattern matched after it. */
  lemma {:induction false} MatchedSomeAlternative(d: Directive, from: nat, next: Pattern,
                                                  s: string, i: nat, g: Groups)
      returns (k: nat)
    requires i <= |s|
    requires MatchAlternatives(d, from, next, s, i, g).Some?
    ensures from <= k < AlternativeCount(d) && AlternativeMatches(d, k, s, i)
    ensures MatchAlternatives(d, from, next, s, i, g)
         == MatchPattern(next, s, i + AlternativeWidth(d, k), Bind(g, d, Span(i, i + AlternativeWidth(d, k))))
    decreases AlternativeCount(d) - from
  {
    assert from < AlternativeCount(d);
    var w := AlternativeWidth(d, from);
    if AlternativeMatches(d, from, s, i) && MatchPattern(next, s, i + w, Bind(g, d, Span(i, i + w))).Some? {
      k := from;
    } else {
      assert MatchAlternatives(d, from, next, s, i, g) == MatchAlternatives(d, from + 1, next, s, i, g);
      k := MatchedSomeAlternative(d, from + 1, next, s, i, g);
    }
  }

  /** A group that no alternative matches at `i` fails, whatever follows. */
  lemma {:induction false} NoAlternativeMatches(d: Directive, from: nat, next: Pattern,
                                                s: string, i: nat, g: Groups)
    requires i <= |s|
    requires forall j :: from <= j < AlternativeCount(d) ==> !AlternativeMatches(d, j, s, i)
    ensures MatchAlternatives(d, from, next, s, i, g).None?
    decreases AlternativeCount(d) - from
  {
    if from < AlternativeCount(d) {
      NoAlternativeMatches(d, from + 1, next, s, i, g);
    }
  }
}

=== FILE: text.dfy ===
/**
 The string primitives the reminder script leans on: Python's `str.strip()`,
 the decimal digit strings that `strptime`/`strftime`/`int()` read and write,
 and `"\n".join(...)` together with its inverse `str.split("\n")`.
 */
module Text {

  import opened Options

  /** Python's `str.isspace()` for one character: the characters that
      `str.strip()` without an argument removes. */
  predicate IsSpace(c: char) {
    var n := c as int;
    || 0x09 <= n <= 0x0D
    || 0x1C <= n <= 0x20
    || n == 0x85
    || n == 0xA0
    || n == 0x1680
    || 0x2000 <= n <= 0x200A
    || n == 0x2028
    || n == 0x2029
    || n == 0x202F
    || n == 0x205F
    || n == 0x3000
  }

  predicate AllSpace(s: string) {
    forall i :: 0 <= i < |s| ==> IsSpace(s[i])
  }

  /** True iff `s` neither starts nor ends with whitespace. */
  predicate Trimmed(s: string) {
    s == [] || (!IsSpace(s[0]) && !IsSpace(s[|s| - 1]))
  }

  /* ----------------------------- strip ----------------------------- */

  /** Drops the leading whitespace of `s`. */
  function TrimStart(s: string): string {
    if |s| > 0 && IsSpace(s[0]) then TrimStart(s[1..]) else s
  }

  /** Drops the trailing whitespace of `s`. */
  function TrimEnd(s: string): string {
    if |s| > 0 && IsSpace(s[|s| - 1]) then TrimEnd(s[..|s| - 1]) else s
  }

  /** `TrimStart` removes a whitespace prefix and leaves a text that does not
      start with whitespace. */
  lemma {:induction false} TrimStartRemovesSpacePrefix(s: string)
    ensures var r := TrimStart(s);
            && |r| <= |s| && r == s[|s| - |r|..] && AllSpace(s[..|s| - |r|])
            && (r == [] || !IsSpace(r[0]))
    decreases |s|
  {
    if |s| > 0 && IsSpace(s[0]) {
      TrimStartRemovesSpacePrefix(s[1..]);
      var r := TrimStart(s);
      assert s[1..][|s| - 1 - |r|..] == s[|s| - |r|..];
      assert s[..|s| - |r|] == [s[0]] + s[1..][..|s| - 1 - |r|];
    }
  }

  /** `TrimEnd` removes a whitespace suffix and leaves a text that does not
      end with whitespace. */
  lemma {:induction false} TrimEndRemovesSpaceSuffix(s: string)
    ensures var r := TrimEnd(s);
            && |r| <= |s| && r == s[..|r|] && AllSpace(s[|r|..])
            && (r == [] || !IsSpace(r[|r| - 1]))
    decreases |s|
  {
    if |s| > 0 && IsSpace(s[|s| - 1]) {
      TrimEndRemovesSpaceSuffix(s[..|s| - 1]);
      var r := TrimEnd(s);
      assert s[..|s| - 1][..|r|] == s[..|r|];
      assert s[|r|..] == s[..|s| - 1][|r|..] + [s[|s| - 1]];
    }
  }

  /** Python's `s.strip()`. */
  function Strip(s: string): string {
    TrimEnd(TrimStart(s))
  }

  /** `strip()` leaves the infix of `s` that neither starts nor ends with
      whitespace once the whitespace at both ends is removed. */
  lemma StripIsTrimmedInfix(s: string)
    ensures var r := Strip(s);
            && Trimmed(r)
            && exists i :: 0 <= i <= |s| - |r| && r == s[i..i + |r|]
                           && AllSpace(s[..i]) && AllSpace(s[i + |r|..])
  {
    var t := TrimStart(s);
    var r := TrimEnd(t);
    TrimStartRemovesSpacePrefix(s);
    TrimEndRemovesSpaceSuffix(t);
    var i := |s| - |t|;
    assert r == s[i..i + |r|];
    assert s[i + |r|..] == t[|r|..];
  }

  lemma {:induction false} TrimStartPrefix(pre: string, t: string)
    requires AllSpace(pre)
    requires t == [] || !IsSpace(t[0])
    ensures TrimStart(pre + t) == t
    decreases |pre|
  {
    if pre != [] {
      assert (pre + t)[1..] == pre[1..] + t;
      TrimStartPrefix(pre[1..], t);
    }
  }

  lemma {:induction false} TrimEndSuffix(t: string, post: string)
    requires AllSpace(post)
    requires t == [] || !IsSpace(t[|t| - 1])
    ensures TrimEnd(t + post) == t
    decreases |post|
  {
    if post != [] {
      var p := post[..|post| - 1];
      assert (t + post)[..|t + post| - 1] == t + p;
      TrimEndSuffix(t, p);
    }
  }

  /** Whatever whitespace surrounds a trimmed string, `strip()` returns
      exactly that string. */
  lemma StripSurrounded(pre: string, core: string, post: string)
    requires AllSpace(pre) && AllSpace(post)
    requires Trimmed(core)
    ensures Strip(pre + core + post) == core
  {
    if core == [] {
      assert pre + core + post == pre + post;
      assert AllSpace(pre + post);
      TrimStartPrefix(pre + post, []);
      assert pre + post == (pre + post) + [];
    } else {
      assert pre + core + post == pre + (core + post);
      TrimStartPrefix(pre, core + post);
      TrimEndSuffix(core, post);
    }
  }

  /** `s.strip().strip() == s.strip()`. */
  lemma StripIdempotent(s: string)
    ensures Strip(Strip(s)) == Strip(s)
  {
    var r := Strip(s);
    StripIsTrimmedInfix(s);
    assert [] + r + [] == r;
    StripSurrounded([], r, []);
  }

  /* ----------------------------- digits ----------------------------- */

  /** The ASCII digits `0`-`9`. */
  predicate IsDigit(c: char) {
    '0' <= c <= '9'
  }

  predicate AllDigits(s: string) {
    forall i :: 0 <= i < |s| ==> IsDigit(s[i])
  }

  function DigitChar(n: nat): (c: char)
    requires n < 10
    ensures IsDigit(c) && DigitValue(c) == n
  {
    ('0' as int + n) as char
  }

  function DigitValue(c: char): nat {
    if IsDigit(c) then c as int - '0' as int else 0
  }

  /** The number a string of decimal digits denotes (most significant first). */
  function DigitsValue(s: string): nat {
    if |s| == 0 then 0 else 10 * DigitsValue(s[..|s| - 1]) + DigitValue(s[|s| - 1])
  }

  function Pow10(n: nat): (r: nat)
    ensures r >= 1
  {
    if n == 0 then 1 else 10 * Pow10(n - 1)
  }

  /** `n` written in exactly `width` decimal digits, zero-padded on the left,
      as `strftime`'s `%Y` (width 4) and `%m`/`%d` (width 2) write it. */
  function PadDigits(n: nat, width: nat): (r: string)
    requires n < Pow10(width)
    ensures |r| == width
    decreases width
  {
    if width == 0 then [] else PadDigits(n / 10, width - 1) + [DigitChar(n % 10)]
  }

  /** The padded rendering is a digit string that reads back as `n`. */
  lemma {:induction false} PadDigitsValue(n: nat, width: nat)
    requires n < Pow10(width)
    ensures AllDigits(PadDigits(n, width)) && DigitsValue(PadDigits(n, width)) == n
    decreases width
  {
    if width > 0 {
      PadDigitsValue(n / 10, width - 1);
      var r := PadDigits(n, width);
      assert r[..|r| - 1] == PadDigits(n / 10, width - 1);
    }
  }

  /** Appending the digit `d` to a number `q` and taking it off again. */
  lemma AppendDigit(q: nat, d: nat, width: nat)
    requires d < 10 && q < Pow10(width)
    ensures (10 * q + d) / 10 == q && (10 * q + d) % 10 == d
    ensures 10 * q + d < Pow10(width + 1)
  {
  }

  /** Every digit string is the padded rendering of its own value. */
  lemma {:induction false} PadDigitsOfValue(s: string)
    requires AllDigits(s)
    ensures DigitsValue(s) < Pow10(|s|)
    ensures PadDigits(DigitsValue(s), |s|) == s
    decreases |s|
  {
    if s != [] {
      var init, last := s[..|s| - 1], s[|s| - 1];
      PadDigitsOfValue(init);
      AppendDigit(DigitsValue(init), DigitValue(last), |init|);
      assert DigitChar(DigitValue(last)) == last;
      assert s == init + [last];
    }
  }

  /** `str(n)`: the decimal digits of `n` without leading zeros. */
  function Decimal(n: nat): (r: string)
    ensures r != [] && AllDigits(r) && DigitsValue(r) == n
    ensures r[0] == '0' <==> n == 0
    ensures n == 0 ==> r == "0"
    decreases n
  {
    if n < 10 then [DigitChar(n)]
    else
      var init := Decimal(n / 10);
      var r := init + [DigitChar(n % 10)];
      assert r[..|r| - 1] == init;
      r
  }

  /** `str(i)` for any integer: a `-` before the digits of a negative one. */
  function IntText(i: int): (r: string)
    ensures r != []
    ensures r[0] == '-' <==> i < 0
    ensures i < 0 ==> AllDigits(r[1..]) && DigitsValue(r[1..]) == -i
    ensures i >= 0 ==> AllDigits(r) && DigitsValue(r) == i
    ensures i >= 0 ==> r == "0" || r[0] != '0'
    ensures i < 0 ==> |r| > 1 && r[1] != '0'
  {
    if i < 0 then "-" + Decimal(-i) else Decimal(i)
  }

  /** Python's `int(t)` on a string of digits possibly surrounded by
      whitespace (`int(" 5") == 5`). */
  function IntOf(t: string): nat {
    DigitsValue(Strip(t))
  }

  /* --------------------------- join / split --------------------------- */

  /** The position of the first `c` in `s`: `s.index(c)`, or `None` where
      Python raises `ValueError`. */
  function Find(s: string, c: char): (r: Option<nat>)
    ensures r.None? <==> c !in s
    ensures r.Some? ==> r.value < |s| && s[r.value] == c && c !in s[..r.value]
  {
    if s == [] then None
    else if s[0] == c then Some(0)
    else
      match Find(s[1..], c)
      case None => None
      case Some(k) =>
        assert s[..k + 1] == [s[0]] + s[1..][..k];
        Some(k + 1)
  }

  /** In `a + [c] + b`, where `a` holds no `c`, the first `c` is the one
      after `a`. */
  lemma FindAfter(a: string, c: char, b: string)
    requires c !in a
    ensures Find(a + [c] + b, c) == Some(|a|)
  {
    var s := a + [c] + b;
    assert s[|a|] == c && s[..|a|] == a;
  }

  /** Python's `sep.join(parts)` for a one-character separator. */
  function Join(parts: seq<string>, sep: char): string
    decreases |parts|
  {
    if |parts| == 0 then ""
    else if |parts| == 1 then parts[0]
    else parts[0] + [sep] + Join(parts[1..], sep)
  }

  /** Python's `s.split(sep)` for a one-character separator. */
  function Split(s: string, sep: char): (r: seq<string>)
    ensures |r| >= 1
    ensures forall i :: 0 <= i < |r| ==> sep !in r[i]
    decreases |s|
  {
    if |s| == 0 then [""]
    else
      var rest := Split(s[1..], sep);
      if s[0] == sep then [""] + rest
      else [[s[0]] + rest[0]] + rest[1..]
  }

  /** Splitting a piece that holds no separator gives that piece alone,
      and a separator ends the first piece. */
  lemma {:induction false} SplitAfterPiece(a: string, sep: char, tail: Option<string>)
    requires sep !in a
    ensures tail.None? ==> Split(a, sep) == [a]
    ensures tail.Some? ==> Split(a + [sep] + tail.value, sep) == [a] + Split(tail.value, sep)
    decreases |a|
  {
    if a != [] {
      SplitAfterPiece(a[1..], sep, tail);
      if tail.Some? {
        assert (a + [sep] + tail.value)[1..] == a[1..] + [sep] + tail.value;
      }
      assert [a[0]] + a[1..] == a;
    } else if tail.Some? {
      assert ([] + [sep] + tail.value)[1..] == tail.value;
    }
  }

  /** `sep.join(parts).split(sep) == parts` when no part contains `sep`. */
  lemma {:induction false} SplitJoin(parts: seq<string>, sep: char)
    requires |parts| >= 1
    requires forall i :: 0 <= i < |parts| ==> sep !in parts[i]
    ensures Split(Join(parts, sep), sep) == parts
    decreases |parts|
  {
    if |parts| == 1 {
      SplitAfterPiece(parts[0], sep, None);
    } else {
      SplitJoin(parts[1..], sep);
      SplitAfterPiece(parts[0], sep, Some(Join(parts[1..], sep)));
      assert [parts[0]] + parts[1..] == parts;
    }
  }

  /** `sep.join(s.split(sep)) == s`. */
  lemma {:induction false} JoinSplit(s: string, sep: char)
    ensures Join(Split(s, sep), sep) == s
    decreases |s|
  {
    if s != [] {
      var rest := Split(s[1..], sep);
      JoinSplit(s[1..], sep);
      if s[0] == sep {
        assert ([""] + rest)[1..] == rest;
      } else {
        var parts := [[s[0]] + rest[0]] + rest[1..];
        if |rest| == 1 {
          assert s == [s[0]] + s[1..];
        } else {
          assert parts[1..] == rest[1..];
          assert Join(rest, sep) == rest[0] + [sep] + Join(rest[1..], sep);
          assert s == [s[0]] + s[1..];
        }
      }
    }
  }
}
